=== FILE: README.md ===
# Retrieval-and-fallback pipeline of a healthcare RAG assistant, in Dafny

This project models the decision pipeline of the "AI chat bot using RAG" healthcare
assistant and proves properties of it. The model covers:

- **Retrieval.** `get_relevant_context` enriches the query with Title-Case phrases from an
  uploaded report. It then walks the nearest-neighbour hits, skipping the `-1` sentinel. It
  averages the distances and applies the two-stage relevance gate. Accepted chunks are
  formatted as `[topic - section]` blocks.
- **Answer generation.** `generate_answer` chooses the response style, builds the source note
  and the empty-context placeholder, and calls the model. When the model reports insufficient
  information, it retries once with Google results. Each failure kind maps to a fixed message.
- **Orchestration in the Streamlit page.** A chat turn may top up a thin context with a web
  search, short-circuits a blank context and records the exchange. The "Generate Insights"
  button replaces a short context outright.
- **Ingestion.** This covers chunk-record construction (topic, `## ` section, `chunk_id`),
  embedding batches and index/metadata alignment, PDF page joining, and the formatting of
  Google results.

Every foreign call is a parameter of the model:

- the FAISS search after query embedding is a `(string, int) -> seq<Hit>`;
- the Groq endpoint is a `Request -> Reply`, where `Reply = Ok(content) | NetErr | Malformed`;
- the Google endpoint is a `string -> SearchResponse`. The page's own searches (`App.Env.pageSearch`) and the retry
  inside `generate_answer` (`Llm.Services.searchApi`) are separate parameters, so each call site may see
  its own response;
- the LangChain splitter is a `string -> seq<string>`;
- the sentence encoder is a `string -> Vector`;
- pdfplumber is a `string -> PdfRead`, and `os.path.exists` at open time is a `string -> bool`.

Outgoing calls are recorded in a trace (`seq<Call>`). This makes budgets such as "at most two
web searches per chat turn" statable.

The Python semantics the pipeline relies on are written out in `PyStr`:

- `str.strip` and `str.split` over the full `isspace` set;
- `lower` and `title`;
- non-overlapping `replace`;
- negative list indexing and slicing;
- substring search.

`TitlePhrases` models `re.findall(r"\b[A-Z][a-z]+(?:\s[A-Z][a-z]+)*\b", ...)`, with the
backtracking of the optional groups. Python leaves the iteration order of
`set(keywords)` unspecified, so `order` is an input constrained to list that set. Every
returned source list is stated by membership and distinctness only.

Modules follow the source files:

| module | file |
|---|---|
| `RagSearch`, `TitlePhrases` | `rag_search.py` |
| `Llm` | `llm.py` |
| `App` | `app.py` |
| `Chunking` | `chunking.py` |
| `Embeddings` | `embeddings.py` |
| `PdfParser` | `pdf_parser.py` |
| `WebSearch` | `web_search.py` |

`Wrappers`, `Lists` and `PyStr` are shared helpers.

Notes on the source's behaviour:

- **The chat turn's web trigger.** In `app.py`, only the word count and the
  `ENABLE_WEB_SEARCH` flag trigger the search. There is no separate "rejected for lacking
  domain relevance" trigger. A rejection returns `""`, which has zero words, so it searches
  anyway (`App.RejectionSearchesWeb`).
- **The "Google Search" label after a retry.** A successful retry rebinds `sources` only
  inside `generate_answer` (models/llm.py:113), which returns the answer alone. The label
  never reaches the caller's sources.
- **The second gate stage.** The domain-keyword stage (utils/rag_search.py:97-101) can
  only be reached with an average distance of at most 0.5. Its own condition needs more
  than 0.55, so it never fires (`RagSearch.DomainStageUnreachable`).
- **Insights sources.** The insights path names "Google Search" as its only reference even
  when the search returned the empty string.
- **`chunk_id`.** The id restarts at 0 in every document, so it is unique per document and
  not per filename.

## Model

| member | source | states |
|---|---|---|
| RagSearch.GetRelevantContext | utils/rag_search.py:51-105 | Without an index the result is `("", [])` whatever the query, `k` or report. With an index but no chunk file, loading the chunks raises. The returned sources never repeat a label. |
| RagSearch.RetrievalOutcome | utils/rag_search.py:66-105 | Retrieval succeeds exactly when every real hit indexes a chunk. The context is empty exactly when the hits were weak (average above 0.5 or nothing selected). Otherwise it is the `"\n\n"`-join of the selected `[topic - section]` blocks in rank order, and it is never blank. Accepted or not, the sources are exactly the labels of every selected chunk. |
| RagSearch.EnrichQuery | utils/rag_search.py:58-62 | The embedded query is the space-join of the picked phrases exactly when the report is non-empty and some phrase survives the length filter; otherwise it is the caller's query unchanged. |
| RagSearch.PickedKeywords | utils/rag_search.py:59-62 | The picked phrases are distinct, are Title-Case phrases found in the report and are longer than three characters. There are min(30, number of distinct such phrases) of them. |
| RagSearch.Resolve | utils/rag_search.py:74 | Python list indexing: an index in `[0, n)` names itself, and an index in `[-n, 0)` names position `n + idx`. Lookup fails exactly when the index is below `-n` or at least `n`. Any index it accepts is in range. |
| RagSearch.FlatText | utils/rag_search.py:77 | The displayed chunk text contains no line break. |
| RagSearch.FlatTextReplacesBreaks | utils/rag_search.py:77 | The displayed text has the length of the stripped chunk text. At each position it holds a space where the stripped text has a line break, and the same character otherwise. |
| RagSearch.Scan | utils/rag_search.py:68-80 | The only failure is an index Python cannot resolve. On success there is one block per non-sentinel hit, and the total is the sum of exactly those hits' distances. |
| RagSearch.ScanSucceedsIff | utils/rag_search.py:70-74 | The pass fails exactly when some real hit names no chunk. |
| RagSearch.ScanAppend | utils/rag_search.py:70-80 | Scanning concatenated hit lists gives the concatenation of the scans, so blocks and labels keep search rank order. |
| RagSearch.ScanSingle | utils/rag_search.py:73-80 | A single real hit contributes exactly its chunk's `[topic - section]` block, its labels (default `["Unknown"]`) and its distance. |
| RagSearch.SentinelIgnored | utils/rag_search.py:70-72 | A `-1` hit anywhere in the list changes nothing: not the blocks, the labels, the total or the failure. |
| RagSearch.ScanBlocksBracketed | utils/rag_search.py:80 | Every block produced by the pass starts with `[`. |
| RagSearch.AverageOfNothing | utils/rag_search.py:81-83 | For any hit list in which no hit is selected (empty or sentinels only), the summed distance is 0 and the average is 0 rather than a division by zero. |
| RagSearch.DomainStageUnreachable | utils/rag_search.py:92-101 | Whenever the first stage lets a selection through, the domain-keyword stage does not reject it. |
| RagSearch.JoinBracketed | utils/rag_search.py:104 | A `"\n\n"`-join of blocks opens like its first block, so it is not blank. |
| RagSearch.GateDecision | utils/rag_search.py:92-105 | The gate accepts exactly the non-empty selections whose average is at most 0.5, returning the `"\n\n"`-join of the blocks in rank order. The sources are the distinct labels of every selected chunk, with no duplicates, whether or not the gate accepts. |
| Lists.Dedup | utils/rag_search.py:68-105 | `list(set(...))` has no duplicates, has the same members and is no longer than its input. |
| TitlePhrases.MatchAt | utils/rag_search.py:59 | A match starting at a position spans Title-Case words joined by single whitespace characters, with a word boundary at both ends. Conversely, whenever such a bounded phrase starts there, a match is found and reaches at least as far: the match is the longest one. |
| TitlePhrases.FindPhrases | utils/rag_search.py:59 | Every phrase `findall` returns is a Title-Case phrase. |
| TitlePhrases.TailComplete | utils/rag_search.py:59 | The optional `\s[A-Z][a-z]+` groups extend a match through every further word of a bounded phrase, to its end or beyond. |
| TitlePhrases.NextPhrase | utils/rag_search.py:59 | When no bounded phrase starts in `[q, p)` and one starts at `p`, the scan from `q` yields the longest match at `p` first, then continues after it. |
| TitlePhrases.FirstPhrase | utils/rag_search.py:59 | The leftmost bounded phrase of a report is found: `findall` is non-empty and its first element is the longest match at that position. |
| TitlePhrases.NoCapitalNoPhrase | utils/rag_search.py:59 | A report without an upper-case letter yields no phrase. |
| TitlePhrases.WholeReportPhrase | utils/rag_search.py:59 | A report that is exactly one phrase is found as exactly that phrase, once. |
| WebSearch.ItemBlocks | utils/web_search.py:22-26 | One `title\nsnippet\nlink` block per item, in response order, with missing fields as empty strings. |
| WebSearch.GoogleSearch | utils/web_search.py:9-33 | Any failure gives `""` and never raises. Otherwise the result is the first `num_results` blocks (Python slicing, negative counts included) joined by a blank line. |
| WebSearch.EmptyResultIff | utils/web_search.py:21-33 | The result is `""` exactly when the request failed or no block is kept. |
| WebSearch.DefaultSearchNonEmpty | utils/web_search.py:4-28 | With the default three results, a response with at least one item always gives non-empty text. |
| Llm.PrimaryRequest | models/llm.py:27-59 | An empty context becomes the placeholder. The style is concise exactly when the lower-cased mode is `"concise"`. The source note is empty exactly when sources are missing or empty. The first request carries no web results. |
| Llm.GenerateAnswer | models/llm.py:12-123 | Among the modelled reply outcomes (a reply with string content, a network failure, an unparsable or key-less body), it raises exactly when the key is empty. The first call carries the primary request. A search with the caller's query happens exactly when the first reply reports insufficient information. A second model call, carrying the web results, happens exactly when that search is non-blank. The answers are: the network message, the invalid-response message, the stripped first reply, the stripped second reply, or the first reply with the processing note. |
| Llm.AfterFirstReply | models/llm.py:95-117 | After the first call the trace is the primary call, then a search exactly when the call succeeded and its reply asks for more information, then a retry carrying the web text exactly when the search text is non-blank. |
| Llm.AfterFirstAnswer | models/llm.py:102-123 | Each failure kind of the first call maps to its fixed message. A retry replaces the answer with the stripped second reply, or keeps the first answer plus the processing note when the second call fails. |
| Llm.WebRetry | models/llm.py:103-115 | The trace is the first model call then a search for the caller's query, followed by a second model call exactly when the search text is not blank. That second call carries the first request plus the web text. Without it the first answer is kept; with it the answer is the stripped second reply, or the first answer plus the processing note when that call fails. |
| Llm.CallBudget | models/llm.py:88-113 | One answer makes at most two model calls and at most one web search. The first call is always to the model, and any search uses the caller's query. |
| Llm.RequestsCarryCaller | models/llm.py:57-106 | Every model request of one answer carries the caller's question, the style of the caller's mode and the caller's source note. |
| Llm.AppModes | models/llm.py:27-36 | The page's `"Concise"` selects the concise note. `"Detailed"` and the default `"detailed"` select the detailed one. |
| App.ResponseMode | app.py:52-53 | The toggle gives the generator a mode whose style is detailed exactly when the toggle is on. |
| App.ReportOf | app.py:147 | The report passed to retrieval is absent exactly when no text was uploaded. |
| App.StoredSources | app.py:176 | The stored sources are never empty. They are the turn's sources whenever those are non-empty, and exactly `["General medical knowledge"]` when they are empty. |
| App.TopUp | app.py:154-160 | The search runs exactly when the context has fewer than 250 words and web search is enabled. The marker becomes Web exactly when that search returned non-blank text. The context then gains `"\n\n"` plus the web text, and "Google Search" is merged into the sources without duplicates. Otherwise context and sources are unchanged. |
| App.TopUpCounts | app.py:154-156 | The top-up makes at most one web search and no model call. |
| App.AnswerTurn | app.py:162-171 | A blank context is answered with the fixed "No relevant information found" message and no call. Otherwise the generator is called with the turn's question, context, mode and sources. It fails exactly when the key is empty, and on success the reply is the generator's answer together with the generator's calls. |
| App.ChatTurn | app.py:145-181 | An empty input changes nothing. Otherwise the question is appended first. A successful turn records the top-up's marker as `source_used`, appends the assistant message holding the generated text with the stored form of the top-up's sources, and its calls are the top-up's followed by the answer's. Those sources are non-empty and duplicate-free. A generation failure also records the marker. A failed turn keeps only the question. A retrieval failure leaves the source marker unchanged and makes no call. |
| App.ChatTurnOutcome | app.py:149-181 | A non-empty turn fails with a retrieval error exactly when `get_relevant_context` raises. It succeeds exactly when retrieval succeeds and either the topped-up context is blank or the key is set, so the only other failure is the generator's missing-key error. |
| App.ChatCallBudget | app.py:154-171 | A chat turn makes at most two web searches and at most two model calls. |
| App.ChatWithoutWeb | app.py:151-176 | With web search disabled and retrieval succeeding, the marker is RAG. No call is made exactly when the hits were weak, and then the answer is the fixed message. |
| App.RejectionSearchesWeb | app.py:151-156 | When retrieval rejects the hits and web search is enabled, the turn's first outgoing call is a web search for the user's query. |
| App.InsightsGathered | app.py:117-122 | The context is replaced by the fixed web search exactly when its stripped length is under 200 and web search is enabled. The sources then become exactly `["Google Search"]`; otherwise context and sources are the retrieval's. |
| App.InsightReply | app.py:124-129 | The generator is always called, even on an empty context, with the fixed question in detailed mode. It fails only on a missing key. |
| App.InsightsFrom | app.py:112-134 | A retrieval or generation exception becomes the shown error. A produced insight shows the generator's answer to the fixed question over the gathered context, lists the gathered sources as its references and carries the gathered marker. Its calls are the gathering's followed by the generator's. It opens with the fixed search when web-sourced, or with the model call when retrieval-sourced, and all its model calls are detailed. |
| App.Insights | app.py:106-134 | Insights exist exactly when some uploaded document yielded text. They are then the outcome of the retrieval with the fixed query "combined medical report analysis", `k = 8` and the blank-line join of the uploads as report. |
| Chunking.TopicOf | utils/chunking.py:23 | The topic has no `_`, no surrounding whitespace, and is its own title-casing. |
| Chunking.TopicStem | utils/chunking.py:23 | The filename with `.pdf` removed, `_` turned into spaces and stripped has no `_` and no surrounding whitespace. |
| Chunking.TopicCaseOnly | utils/chunking.py:23 | The topic differs from that stem only in letter case: same length, same lower-casing. |
| Chunking.TopicIgnoresExtension | utils/chunking.py:23 | For a stem without `.pdf` inside it, `stem.pdf` and `stem` give the same topic. |
| Chunking.FindHeading | utils/chunking.py:28 | `re.search(r"## (.*?)\n")` finds the leftmost match, and its capture stops at the first line break. There is no match exactly when no mark is followed by a line break. |
| Chunking.SectionOf | utils/chunking.py:28-29 | The section never contains a line break. |
| Chunking.HeadingSection | utils/chunking.py:28-29 | A piece that opens with a heading line takes the stripped heading as its section. |
| Chunking.NoMarkGeneral | utils/chunking.py:28-29 | A piece without `## ` gets the section "General". |
| Chunking.ChunkText | utils/chunking.py:15-44 | The i-th splitter piece becomes the record with `chunk_id = i`, its stripped text, its section, the given filename and the file's topic. There is one record per piece, and every record carries the fixed sources, year and region. |
| Chunking.ChunkDocuments | utils/chunking.py:47-67 | Nothing is written exactly when the input file is missing. Every written record is well formed. |
| Chunking.AllChunksAppend | utils/chunking.py:57-63 | The output for concatenated inputs is the concatenation of their outputs. |
| Chunking.AllChunksFlatten | utils/chunking.py:57-63 | The output is each document's chunks, in document order. |
| Chunking.BlankDocSkipped | utils/chunking.py:60-61 | A document with blank or missing text contributes nothing. |
| Chunking.MissingFilenameDefaults | utils/chunking.py:59-62 | A document without a filename is recorded under `unknown.pdf`, one record per piece. |
| Embeddings.BatchesFrom | models/embeddings.py:15-16 | Every batch is non-empty and at most `batch_size` long. All but the last are exactly `batch_size` long. |
| Embeddings.BatchesCover | models/embeddings.py:14-16 | Concatenating the batches gives back exactly the texts. |
| Embeddings.StackEncodedFlatten | models/embeddings.py:23-24 | Stacking the encoded batches equals encoding the concatenated batches. |
| Embeddings.EmbedTexts | models/embeddings.py:13-24 | A zero batch size raises in `range`. A negative size or no texts leaves `vstack` nothing to stack. Otherwise row i is the embedding of text i, one row per text. |
| Embeddings.Extract | models/embeddings.py:33-40 | Every line gives one text and one metadata record at the same position. Extraction fails at the first line lacking text, exactly when some line lacks it. |
| Embeddings.BuildFaissIndex | models/embeddings.py:26-48 | The i-th vector embeds line i's text, and the i-th metadata record describes line i. The build succeeds exactly when the file has lines and all of them have text. |
| Embeddings.ChunkFileBuilds | models/embeddings.py:33-43 | A non-empty chunk file written by the chunking stage always builds, with aligned vectors and metadata. |
| PdfParser.JoinPagesAppend | utils/pdf_parser.py:21-24 | Pages contribute their text in page order. |
| PdfParser.JoinPagesBlankIff | utils/pdf_parser.py:21-24 | The joined text is blank exactly when every present page is blank. |
| PdfParser.ExtractTextFromPdf | utils/pdf_parser.py:6-28 | A missing file raises before reading. A reader failure is reported as a read error. Otherwise the result is the stripped join of the pages, empty exactly when no page holds anything but whitespace. |
| PdfParser.PdfNames | utils/pdf_parser.py:40-41 | The kept entries are exactly the listing's names that end in `.pdf`, case-sensitively. |
| PdfParser.PdfNamesAppend | utils/pdf_parser.py:40-41 | The filter keeps listing order. |
| PdfParser.ExtractTextFromPdfs | utils/pdf_parser.py:31-47 | There is one record per `.pdf` entry, in listing order, holding what `extract_text_from_pdf` returns for that file. The run stops exactly when some listed PDF is missing at open time (a dangling link, a file removed after the listing) or unreadable. It stops at the first such entry, with `FileNotFoundError` when that entry is missing and the wrapped read error otherwise. |
| PyStr.Strip | utils/pdf_parser.py:28 | `str.strip()` is no longer than its input, is empty exactly when the input is blank, and has no whitespace at either end. |
| PyStr.StripIsSlice | utils/pdf_parser.py:28 | `str.strip()` is a contiguous slice of its input with only whitespace cut off before and after it. |
| PyStr.StripIdempotent | utils/chunking.py:36 | Stripping twice is stripping once, so stored chunk texts are already stripped. |
| PyStr.WordCountZeroIffBlank | app.py:154 | `len(s.split())` is zero exactly when `s` is blank. |

## Left out

- The Streamlit UI is not modelled. That covers rendering, captions, spinners, the last-eight-message window, the upload widget and its file writes, `st.rerun`, and the insights button's own `source_used` assignment. The insight carries its source marker instead.
- File and JSON I/O is not modelled. Parsed records, page texts, directory listings and the existence of files are inputs. JSON `null` values and non-string field types are not modelled: a key is either present with a string or absent. A blank line in the chunk file, where `json.loads` raises, is not modelled.
- The foreign libraries are not modelled: the sentence encoder, FAISS search, add and write, pdfplumber, the LangChain splitter, and the Groq and Google HTTP clients. Their results are parameters. The encoder is assumed to encode each text independently of its batch.
- Distances are `real`, not float32. The `float32` cast and the rounding in the average are not modelled.
- `\w`, `\b`, `str.lower` and `str.title` are modelled on ASCII letters. Python's Unicode behaviour for other letters is not modelled.
- The prompt wording, the system prompt, `max_tokens` and the temperature are not modelled. A `Request` keeps only the fields the prompt is built from.
- The `try/except` around each record in `chunk_text` is not modelled. Nothing in it can raise for a splitter piece that is a string.
- The `try/except` around `chunk_documents` is not modelled beyond the missing-input case. A malformed input file (`json.load`), an unwritable output file and non-string field values are caught there too; the model takes the parsed documents as input and does not model file writing.
- `Lists.Dedup` fixes first-occurrence order for `list(set(...))`. Python leaves that order unspecified, so no contract states an order for returned source lists.
- Embeddings.BatchesFrom: the number of batches (the ceiling of `len(texts) / batch_size`) is not stated. Non-linear arithmetic is avoided in its contract; the sizes of the batches and their concatenation determine it.
- RagSearch.GetRelevantContext: its own contract states only the index-less, missing-file and duplicate-free cases. Success, the gate, the accepted context and the sources are stated in `RagSearch.RetrievalOutcome`.
- Llm.GenerateAnswer: a reply body of the wrong shape (a top-level JSON list, a `null` or non-string `content`) raises `TypeError` or `AttributeError` at `models/llm.py:92`, which neither `except` clause catches. Replies are modelled as `Ok(content)`, `NetErr` or `Malformed`, so this escape is not stated.

=== FILE: app.dfy ===
/**
 * The two flows of the Streamlit page that use the core: a chat turn (retrieve, maybe add
 * web results, answer, record the exchange) and "Generate Insights" over the uploaded
 * documents. Rendering, spinners and the upload widgets are not modelled; the session
 * state the flows read and write is.
 */
module App {
  import opened Wrappers
  import opened PyStr
  import opened Lists
  import opened WebSearch
  import opened RagSearch
  import opened Llm

  /** The `k` a chat turn passes to retrieval (app.py:151, equal to `TOP_K`). */
  const ChatTopK: int := 6
  /** The `k` the insights button passes to retrieval (app.py:114). */
  const InsightsTopK: int := 8
  /** A chat context of fewer words than this is topped up from the web. */
  const ThinContextWords: nat := 250
  /** An insights context of fewer stripped characters than this is replaced from the web. */
  const ShortContextChars: nat := 200
  const WebLabel: string := "Google Search"
  const FallbackLabel: string := "General medical knowledge"
  const NothingFoundMessage: string := "No relevant information found. Please rephrase your question."
  const InsightsRetrievalQuery: string := "combined medical report analysis"
  const InsightsWebQuery: string := "general medical report insights"
  const InsightsQuestion: string := "Summarize insights across all uploaded health documents."
  const InsightsMode: string := "Detailed"

  /** `st.session_state.source_used`: `"RAG"` or `"Web Search"`. */
  datatype SourceUsed = Rag | Web

  /** One entry of the chat history. */
  datatype Message = UserMessage(content: string) | AssistantMessage(content: string, sources: seq<string>)

  /** The part of the session state the flows change. */
  datatype Session = Session(messages: seq<Message>, sourceUsed: Option<SourceUsed>)

  /**
   * `ENABLE_WEB_SEARCH`, the retrieval store, the generator's collaborators, and the
   * responses the page's own `google_search` calls receive. The page's searches and the
   * generator's retry search are separate parameters, so two searches for the same query
   * in one turn may see different responses.
   */
  datatype Env = Env(webEnabled: bool, store: Store, services: Services, pageSearch: string -> SearchResponse)

  /** `google_search(query)` called by the page itself. */
  function PageSearch(env: Env, query: string): string {
    GoogleSearch(env.pageSearch(query), DefaultNumResults)
  }

  /** An exception caught by the flow's `except Exception` and shown as an error. */
  datatype FlowError = RetrievalFailed(retrieval: RetrievalError) | GenerationFailed(generation: GenError)

  /** The session after a chat turn, the outgoing calls, and the error shown, if any. */
  datatype Turn = Turn(session: Session, calls: seq<Call>, error: Option<FlowError>)

  /** The context and sources handed to the generator, and where they came from. */
  datatype Gathered = Gathered(context: string, sources: seq<string>, used: SourceUsed, calls: seq<Call>)

  /** The toggle picks the mode the generator receives. */
  function ResponseMode(detailed: bool): (m: string)
    ensures StyleFor(m) == (if detailed then Detailed else Concise)
  {
    AppModes();
    if detailed then "Detailed" else "Concise"
  }

  /** `"\n\n".join(uploaded_texts) if uploaded_texts else None`. */
  function ReportOf(uploaded: seq<string>): (r: Option<string>)
    ensures r.None? <==> |uploaded| == 0
  {
    if |uploaded| == 0 then None else Some(Join(uploaded, "\n\n"))
  }

  /** The sources stored with an answer: `sources if sources else ["General medical knowledge"]`. */
  function StoredSources(sources: seq<string>): (r: seq<string>)
    ensures |r| > 0
    ensures |sources| > 0 ==> r == sources
    ensures |sources| == 0 ==> r == [FallbackLabel]
  {
    if |sources| > 0 then sources else [FallbackLabel]
  }

  /**
   * app.py:154-160: a context of fewer than 250 words is topped up with the web results for
   * the user's query when web search is enabled; a blank result changes nothing.
   */
  function TopUp(env: Env, query: string, retrieved: Retrieved): (g: Gathered)
    ensures |g.calls| <= 1
    ensures |g.calls| == 1 <==> WordCount(retrieved.context) < ThinContextWords && env.webEnabled
    ensures |g.calls| == 1 ==> g.calls[0] == WebCall(query)
    ensures g.used == Web <==> |g.calls| == 1 && !AllSpace(PageSearch(env, query))
    ensures g.used == Rag ==> g.context == retrieved.context && g.sources == retrieved.sources
    ensures g.used == Web ==>
      && g.context == retrieved.context + "\n\n" + PageSearch(env, query)
      && (forall x :: x in g.sources <==> x in retrieved.sources || x == WebLabel)
    ensures NoDup(retrieved.sources) ==> NoDup(g.sources)
  {
    if WordCount(retrieved.context) < ThinContextWords && env.webEnabled then
      var web := PageSearch(env, query);
      if Strip(web) != "" then
        assert forall x :: x in retrieved.sources + [WebLabel] <==> x in retrieved.sources || x == WebLabel;
        Gathered(retrieved.context + "\n\n" + web, Dedup(retrieved.sources + [WebLabel]), Web, [WebCall(query)])
      else Gathered(retrieved.context, retrieved.sources, Rag, [WebCall(query)])
    else Gathered(retrieved.context, retrieved.sources, Rag, [])
  }

  /** The reply of a chat turn and the model calls made for it. */
  datatype Answered = Answered(text: string, calls: seq<Call>)

  /**
   * app.py:162-171: a blank context is answered with the fixed message and no model call;
   * any other goes to the generator with the turn's mode and sources.
   */
  function AnswerTurn(env: Env, query: string, g: Gathered, detailed: bool): (r: Result<Answered, GenError>)
    ensures AllSpace(g.context) ==> r == Success(Answered(NothingFoundMessage, []))
    ensures !AllSpace(g.context) ==> (r.Failure? <==> env.services.apiKey == "")
    ensures !AllSpace(g.context) && r.Success? ==>
      |r.value.calls| >= 1 && r.value.calls[0] == ModelCall(PrimaryRequest(query, g.context, ResponseMode(detailed), Some(g.sources)))
    ensures !AllSpace(g.context) && r.Success? ==>
      var gen := GenerateAnswer(env.services, query, g.context, ResponseMode(detailed), Some(g.sources));
      gen.Success? && r.value == Answered(gen.value.answer, gen.value.calls)
    ensures r.Success? ==> CountModelCalls(r.value.calls) <= 2 && CountWebCalls(r.value.calls) <= 1
  {
    if Strip(g.context) == "" then Success(Answered(NothingFoundMessage, []))
    else
      match GenerateAnswer(env.services, query, g.context, ResponseMode(detailed), Some(g.sources))
      case Failure(e) => Failure(e)
      case Success(gen) =>
        CallBudget(env.services, query, g.context, ResponseMode(detailed), Some(g.sources));
        Success(Answered(gen.answer, gen.calls))
  }

  /**
   * app.py:145-178: one chat turn. An empty input does nothing. Otherwise the question is
   * recorded, context retrieved with `k = 6` and the joined uploads as report, topped up
   * from the web, and answered. A raised exception leaves the question recorded without
   * an answer; the source marker is set once retrieval has succeeded.
   */
  function ChatTurn(env: Env, session: Session, query: string, uploaded: seq<string>, detailed: bool, order: seq<string>)
    : (t: Turn)
    requires ValidOrder(ReportOf(uploaded), order)
    ensures query == "" ==> t == Turn(session, [], None)
    ensures query != "" ==>
      && |t.session.messages| == |session.messages| + (if t.error.None? then 2 else 1)
      && t.session.messages[..|session.messages| + 1] == session.messages + [UserMessage(query)]
    ensures t.error.Some? ==> query != ""
    ensures query != "" && t.error.None? ==>
      var answer := t.session.messages[|t.session.messages| - 1];
      answer.AssistantMessage? && |answer.sources| > 0 && NoDup(answer.sources)
    ensures t.error.Some? && t.error.value.RetrievalFailed? ==> t.session.sourceUsed == session.sourceUsed && t.calls == []
    ensures query != "" && (t.error.None? || t.error.value.GenerationFailed?) ==>
      var retrieved := GetRelevantContext(env.store, query, ChatTopK, ReportOf(uploaded), order);
      && retrieved.Success?
      && var g := TopUp(env, query, retrieved.value);
      && t.session.sourceUsed == Some(g.used)
      && (t.error.None? ==>
            var reply := AnswerTurn(env, query, g, detailed);
            && reply.Success?
            && t.session.messages[|t.session.messages| - 1] == AssistantMessage(reply.value.text, StoredSources(g.sources))
            && t.calls == g.calls + reply.value.calls)
  {
    if query == "" then Turn(session, [], None)
    else
      var asked := session.(messages := session.messages + [UserMessage(query)]);
      match GetRelevantContext(env.store, query, ChatTopK, ReportOf(uploaded), order)
      case Failure(e) => Turn(asked, [], Some(RetrievalFailed(e)))
      case Success(retrieved) =>
        var g := TopUp(env, query, retrieved);
        var marked := asked.(sourceUsed := Some(g.used));
        match AnswerTurn(env, query, g, detailed)
        case Failure(e) => Turn(marked, g.calls, Some(GenerationFailed(e)))
        case Success(reply) =>
          Turn(marked.(messages := marked.messages + [AssistantMessage(reply.text, StoredSources(g.sources))]),
               g.calls + reply.calls, None)
  }

  /**
   * When a chat turn fails: exactly when retrieval raises, or when the generator is reached
   * with a non-blank context and raises for the missing key.
   */
  lemma ChatTurnOutcome(env: Env, session: Session, query: string, uploaded: seq<string>, detailed: bool, order: seq<string>)
    requires ValidOrder(ReportOf(uploaded), order)
    requires query != ""
    ensures var t := ChatTurn(env, session, query, uploaded, detailed, order);
      var retrieved := GetRelevantContext(env.store, query, ChatTopK, ReportOf(uploaded), order);
      && (t.error.Some? && t.error.value.RetrievalFailed? <==> retrieved.Failure?)
      && (t.error.None? <==>
            retrieved.Success? && (AllSpace(TopUp(env, query, retrieved.value).context) || env.services.apiKey != ""))
  {
    var retrieved := GetRelevantContext(env.store, query, ChatTopK, ReportOf(uploaded), order);
    if retrieved.Success? {
      var g := TopUp(env, query, retrieved.value);
      var reply := AnswerTurn(env, query, g, detailed);
      assert reply.Failure? <==> !AllSpace(g.context) && env.services.apiKey == "";
    }
  }

  /** What "Generate Insights" shows: the answer, the source caption and the references. */
  datatype Insight = Insight(text: string, used: SourceUsed, references: seq<string>, calls: seq<Call>)

  /** The insights context and sources after the short-context replacement of app.py:117-122. */
  function InsightsGathered(env: Env, retrieved: Retrieved): (g: Gathered)
    ensures g.used == Web <==> |Strip(retrieved.context)| < ShortContextChars && env.webEnabled
    ensures g.used == Web ==>
      g.context == PageSearch(env, InsightsWebQuery) && g.sources == [WebLabel] && g.calls == [WebCall(InsightsWebQuery)]
    ensures g.used == Rag ==> g.context == retrieved.context && g.sources == retrieved.sources && g.calls == []
    ensures ModelCallsStyled(g.calls, Detailed)
  {
    if |Strip(retrieved.context)| < ShortContextChars && env.webEnabled then
      Gathered(PageSearch(env, InsightsWebQuery), [WebLabel], Web, [WebCall(InsightsWebQuery)])
    else Gathered(retrieved.context, retrieved.sources, Rag, [])
  }

  /** Every model request in `calls` carries `style`. */
  predicate ModelCallsStyled(calls: seq<Call>, style: Style) {
    forall i :: 0 <= i < |calls| && calls[i].ModelCall? ==> calls[i].request.style == style
  }

  lemma StyledAppend(a: seq<Call>, b: seq<Call>, style: Style)
    requires ModelCallsStyled(a, style) && ModelCallsStyled(b, style)
    ensures ModelCallsStyled(a + b, style)
  {
    forall i | 0 <= i < |a + b| && (a + b)[i].ModelCall?
      ensures (a + b)[i].request.style == style
    {
      if i >= |a| {
        assert (a + b)[i] == b[i - |a|];
      }
    }
  }

  /** app.py:124-129: the fixed question, in detailed mode, over the gathered context. */
  function InsightReply(env: Env, g: Gathered): (r: Result<Answered, GenError>)
    ensures r.Failure? <==> env.services.apiKey == ""
    ensures r.Success? ==>
      && |r.value.calls| >= 1
      && r.value.calls[0] == ModelCall(PrimaryRequest(InsightsQuestion, g.context, InsightsMode, Some(g.sources)))
      && ModelCallsStyled(r.value.calls, Detailed)
  {
    match GenerateAnswer(env.services, InsightsQuestion, g.context, InsightsMode, Some(g.sources))
    case Failure(e) => Failure(e)
    case Success(gen) =>
      RequestsCarryCaller(env.services, InsightsQuestion, g.context, InsightsMode, Some(g.sources));
      AppModes();
      Success(Answered(gen.answer, gen.calls))
  }

  /**
   * app.py:106-134: insights across every uploaded document, available only once some
   * document yielded text. The retrieval uses a fixed query, `k = 8` and the joined uploads
   * as report; a short context is replaced outright by a fixed web search; the generator
   * always answers a fixed question in detailed mode.
   */
  function Insights(env: Env, uploaded: seq<string>, order: seq<string>): (r: Option<Result<Insight, FlowError>>)
    requires ValidOrder(ReportOf(uploaded), order)
    ensures r.None? <==> |uploaded| == 0
    ensures r.Some? && r.value.Success? ==> InsightShape(r.value.value)
    ensures r.Some? ==>
      r.value == InsightsFrom(env, GetRelevantContext(env.store, InsightsRetrievalQuery, InsightsTopK, ReportOf(uploaded), order))
  {
    if |uploaded| == 0 then None
    else Some(InsightsFrom(env, GetRelevantContext(env.store, InsightsRetrievalQuery, InsightsTopK, ReportOf(uploaded), order)))
  }

  /**
   * What every produced insight satisfies: a web-sourced one opens with the fixed search
   * and names only the search as reference, a retrieval-sourced one opens with the model
   * call, and every model call is in detailed mode.
   */
  predicate InsightShape(ins: Insight) {
    && |ins.calls| >= 1
    && (ins.used == Web ==> ins.references == [WebLabel] && ins.calls[0] == WebCall(InsightsWebQuery))
    && (ins.used == Rag ==> ins.calls[0].ModelCall?)
    && ModelCallsStyled(ins.calls, Detailed)
  }

  /** app.py:112-134 once the retrieval has run. */
  function InsightsFrom(env: Env, retrieval: Result<Retrieved, RetrievalError>): (r: Result<Insight, FlowError>)
    ensures r.Failure? && retrieval.Failure? ==> r.error == RetrievalFailed(retrieval.error)
    ensures r.Failure? && retrieval.Success? ==> r.error == GenerationFailed(MissingApiKey)
    ensures r.Failure? <==> retrieval.Failure? || env.services.apiKey == ""
    ensures r.Success? ==> InsightShape(r.value)
    ensures r.Success? ==>
      && retrieval.Success?
      && var g := InsightsGathered(env, retrieval.value);
      && var gen := GenerateAnswer(env.services, InsightsQuestion, g.context, InsightsMode, Some(g.sources));
      && gen.Success?
      && r.value.text == gen.value.answer
      && r.value.references == g.sources
      && r.value.used == g.used
      && r.value.calls == g.calls + gen.value.calls
  {
    match retrieval
    case Failure(e) => Failure(RetrievalFailed(e))
    case Success(retrieved) =>
      var g := InsightsGathered(env, retrieved);
      match InsightReply(env, g)
      case Failure(e) => Failure(GenerationFailed(e))
      case Success(reply) =>
        StyledAppend(g.calls, reply.calls, Detailed);
        var calls := g.calls + reply.calls;
        assert calls[0] == if g.used == Web then WebCall(InsightsWebQuery) else reply.calls[0];
        Success(Insight(reply.text, g.used, g.sources, calls))
  }

  /** The searches a top-up makes: none or one, never a model call. */
  lemma TopUpCounts(env: Env, query: string, retrieved: Retrieved)
    ensures CountModelCalls(TopUp(env, query, retrieved).calls) == 0
    ensures CountWebCalls(TopUp(env, query, retrieved).calls) <= 1
  {
    var calls := TopUp(env, query, retrieved).calls;
    if |calls| == 1 {
      assert calls == [WebCall(query)];
      SearchOnlyCounts(query);
    }
  }

  lemma SearchOnlyCounts(query: string)
    ensures CountModelCalls([WebCall(query)]) == 0 && CountWebCalls([WebCall(query)]) == 1
  {
    assert [WebCall(query)][1..] == [];
  }

  /**
   * A chat turn makes at most two web searches (the top-up and the generator's retry)
   * and at most two model calls.
   */
  lemma ChatCallBudget(env: Env, session: Session, query: string, uploaded: seq<string>, detailed: bool, order: seq<string>)
    requires ValidOrder(ReportOf(uploaded), order)
    ensures CountWebCalls(ChatTurn(env, session, query, uploaded, detailed, order).calls) <= 2
    ensures CountModelCalls(ChatTurn(env, session, query, uploaded, detailed, order).calls) <= 2
  {
    if query != "" {
      var r := GetRelevantContext(env.store, query, ChatTopK, ReportOf(uploaded), order);
      if r.Success? {
        var g := TopUp(env, query, r.value);
        TopUpCounts(env, query, r.value);
        var reply := AnswerTurn(env, query, g, detailed);
        if reply.Success? {
          CountsAppend(g.calls, reply.value.calls);
        }
      }
    }
  }

  /**
   * With web search disabled and a retrieval that succeeds, the generator is consulted
   * exactly when the retrieval gate accepted the hits; a rejected retrieval is answered
   * with the fixed message, without any call.
   */
  lemma ChatWithoutWeb(env: Env, session: Session, query: string, uploaded: seq<string>, detailed: bool, order: seq<string>)
    requires ValidOrder(ReportOf(uploaded), order)
    requires query != "" && !env.webEnabled && env.services.apiKey != ""
    requires env.store.indexLoaded && env.store.chunkFile.Some?
    requires Scan(env.store.search(EnrichQuery(query, ReportOf(uploaded), order), ChatTopK), env.store.chunkFile.value).Success?
    ensures var t := ChatTurn(env, session, query, uploaded, detailed, order);
      var sel := Scan(env.store.search(EnrichQuery(query, ReportOf(uploaded), order), ChatTopK), env.store.chunkFile.value).value;
      && t.error.None?
      && t.session.sourceUsed == Some(Rag)
      && (t.calls == [] <==> WeakMatch(sel))
      && (WeakMatch(sel) ==> t.session.messages[|t.session.messages| - 1].content == NothingFoundMessage)
  {
    var r := GetRelevantContext(env.store, query, ChatTopK, ReportOf(uploaded), order);
    RetrievalOutcome(env.store, query, ChatTopK, ReportOf(uploaded), order);
    var g := TopUp(env, query, r.value);
    assert g.context == r.value.context;
    if r.value.context == "" {
      assert AllSpace(g.context);
    }
  }

  /**
   * With web search enabled, a retrieval the gate rejected always leads to a search for
   * the user's own query: its empty context has no words at all.
   */
  lemma RejectionSearchesWeb(env: Env, session: Session, query: string, uploaded: seq<string>, detailed: bool, order: seq<string>)
    requires ValidOrder(ReportOf(uploaded), order)
    requires query != "" && env.webEnabled
    requires GetRelevantContext(env.store, query, ChatTopK, ReportOf(uploaded), order).Success?
    requires GetRelevantContext(env.store, query, ChatTopK, ReportOf(uploaded), order).value.context == ""
    ensures var t := ChatTurn(env, session, query, uploaded, detailed, order);
      |t.calls| >= 1 && t.calls[0] == WebCall(query)
  {
    assert WordCount("") == 0;
    var r := GetRelevantContext(env.store, query, ChatTopK, ReportOf(uploaded), order);
    var g := TopUp(env, query, r.value);
    assert g.calls == [WebCall(query)];
  }
}

=== FILE: chunking.dfy ===
/**
 * `chunk_text` and `chunk_documents`: split each document into pieces (the text splitter
 * is a collaborator, `split`) and wrap every piece in a chunk record carrying a topic
 * title derived from the filename and the section heading found in the piece.
 */
module Chunking {
  import opened Wrappers
  import opened PyStr
  import opened Lists

  const RecordSources: seq<string> := ["WHO", "CDC", "ICMR"]
  const PublishedYear: int := 2024
  const Region: seq<string> := ["Global"]
  const DefaultFilename: string := "unknown.pdf"
  const DefaultSection: string := "General"
  const HeadingMark: string := "## "

  /** One line of `processed_chunks.jsonl`. */
  datatype ChunkRecord = ChunkRecord(
    filename: string,
    topicTitle: string,
    section: string,
    chunkId: nat,
    text: string,
    sources: seq<string>,
    publishedYear: int,
    region: seq<string>)

  /** One entry of `pdf_texts.json`; a key the entry lacks is `None`. */
  datatype SourceDoc = SourceDoc(filename: Option<string>, text: Option<string>)

  const PdfExtension: string := ".pdf"

  /** The filename without `.pdf` anywhere, underscores as spaces, stripped. */
  function TopicStem(filename: string): (u: string)
    ensures '_' !in u
    ensures u == [] || (!IsSpace(u[0]) && !IsSpace(u[|u| - 1]))
  {
    var spaced := Replace(Replace(filename, PdfExtension, ""), "_", " ");
    assert '_' !in Strip(spaced) by {
      ReplaceCharRemoves(Replace(filename, PdfExtension, ""), '_', ' ');
      StripKeepsOut(spaced, '_');
    }
    Strip(spaced)
  }

  /**
   * `filename.replace(".pdf", "").replace("_", " ").strip().title()`: free of `_` and of
   * surrounding whitespace, and already in title case.
   */
  function TopicOf(filename: string): (t: string)
    ensures '_' !in t
    ensures t == [] || (!IsSpace(t[0]) && !IsSpace(t[|t| - 1]))
    ensures Title(t) == t
  {
    var u := TopicStem(filename);
    TopicShape(u);
    TitleFromIdempotent(u, false);
    Title(u)
  }

  /** The topic is the filename's stem with only the case of its letters changed. */
  lemma TopicCaseOnly(filename: string)
    ensures |TopicOf(filename)| == |TopicStem(filename)|
    ensures Lower(TopicOf(filename)) == Lower(TopicStem(filename))
  {
    TitleFromLower(TopicStem(filename), false);
  }

  /** The `.pdf` extension never shows in the topic: a file and its stem share a topic. */
  lemma TopicIgnoresExtension(stem: string)
    requires forall j :: !OccursAt(stem, PdfExtension, j)
    ensures TopicOf(stem + PdfExtension) == TopicOf(stem)
  {
    var t := stem + PdfExtension;
    forall j | 0 <= j < |stem|
      ensures !OccursAt(t, PdfExtension, j)
    {
      if j + 4 <= |stem| {
        assert !OccursAt(stem, PdfExtension, j);
        assert t[j..j + 4] == stem[j..j + 4];
      } else {
        var k := |stem| - j;
        assert t[j..j + 4][k] == '.';
        assert PdfExtension[k] != '.';
      }
    }
    ReplaceAppendedPattern(stem, PdfExtension, "");
    assert Replace(stem, PdfExtension, "") + "" == Replace(stem, PdfExtension, "");
  }

  /** Title-casing keeps a string free of `_` and of surrounding whitespace. */
  lemma TopicShape(u: string)
    requires '_' !in u
    requires u == [] || (!IsSpace(u[0]) && !IsSpace(u[|u| - 1]))
    ensures '_' !in Title(u)
    ensures Title(u) == [] || (!IsSpace(Title(u)[0]) && !IsSpace(Title(u)[|u| - 1]))
  {
    var t := Title(u);
    forall i | 0 <= i < |u|
      ensures t[i] != '_' && (!IsSpace(u[i]) ==> !IsSpace(t[i]))
    {
      TitleFromLetters(u, false, i);
      if !IsLetter(u[i]) {
        TitleFromKeepsNonLetters(u, false, i);
      }
    }
  }

  /** `re.search(r"## (.*?)\n", piece)` can match at `p` with its newline at `q`. */
  predicate HeadingMatch(s: string, p: nat, q: nat) {
    && OccursAt(s, HeadingMark, p) && p + 3 <= q < |s| && s[q] == '\n'
    && forall j :: p + 3 <= j < q ==> s[j] != '\n'
  }

  lemma NewlineAt(s: string, q: nat)
    requires q < |s|
    ensures OccursAt(s, "\n", q) <==> s[q] == '\n'
  {
    if s[q] == '\n' {
      assert s[q..q + 1] == "\n";
    }
  }

  /**
   * The leftmost match of the heading pattern. `.` does not cross a line break, so the
   * capture ends at the first newline after the mark; and when the first mark has no
   * newline after it, no later mark has one either.
   */
  function FindHeading(s: string): (r: Option<(nat, nat)>)
    ensures r.Some? ==> HeadingMatch(s, r.value.0, r.value.1)
    ensures r.Some? ==> forall p: nat, q: nat :: p < r.value.0 ==> !HeadingMatch(s, p, q)
    ensures r.None? ==> forall p, q :: !HeadingMatch(s, p, q)
  {
    match FindFrom(s, HeadingMark, 0)
    case None => None
    case Some(p) =>
      var nl := FindFrom(s, "\n", p + 3);
      FindHeadingCases(s, p, nl);
      if nl.None? then None else Some((p, nl.value))
  }

  lemma FindHeadingCases(s: string, p: nat, nl: Option<nat>)
    requires OccursAt(s, HeadingMark, p)
    requires forall j :: 0 <= j < p ==> !OccursAt(s, HeadingMark, j)
    requires nl == FindFrom(s, "\n", p + 3)
    ensures nl.Some? ==> HeadingMatch(s, p, nl.value)
    ensures forall p': nat, q: nat :: p' < p ==> !HeadingMatch(s, p', q)
    ensures nl.None? ==> forall p', q :: !HeadingMatch(s, p', q)
  {
    if nl.Some? {
      NewlineAt(s, nl.value);
      forall j | p + 3 <= j < nl.value
        ensures s[j] != '\n'
      {
        NewlineAt(s, j);
      }
    } else {
      forall p', q | HeadingMatch(s, p', q)
        ensures false
      {
        NewlineAt(s, q);
      }
    }
  }

  /** The stripped heading capture of the piece, `"General"` when the pattern finds none. */
  function SectionOf(piece: string): (sec: string)
    ensures '\n' !in sec
  {
    match FindHeading(piece)
    case None => DefaultSection
    case Some((p, q)) =>
      assert '\n' !in piece[p + 3..q];
      Strip(piece[p + 3..q])
  }

  /** A piece opening with a heading line takes its stripped title as section. */
  lemma HeadingSection(h: string, rest: string)
    requires '\n' !in h
    ensures SectionOf(HeadingMark + h + "\n" + rest) == Strip(h)
  {
    var s := HeadingMark + h + "\n" + rest;
    assert OccursAt(s, HeadingMark, 0);
    assert HeadingMatch(s, 0, 3 + |h|);
    var m := FindHeading(s).value;
    assert m.0 == 0;
    assert m.1 == 3 + |h|;
    assert s[3..3 + |h|] == h;
  }

  /** Without a heading mark the section is the default. */
  lemma NoMarkGeneral(piece: string)
    requires forall j :: 0 <= j < |piece| ==> !OccursAt(piece, HeadingMark, j)
    ensures SectionOf(piece) == DefaultSection
  {
  }

  /** What every record of the chunk file satisfies, whichever document it came from. */
  predicate WellFormed(r: ChunkRecord) {
    && r.sources == RecordSources && r.publishedYear == PublishedYear && r.region == Region
    && '_' !in r.topicTitle && '\n' !in r.section && Strip(r.text) == r.text
  }

  /** The records of the pieces, the i-th with `chunk_id = i`, under one filename and topic. */
  function PieceRecords(pieces: seq<string>, filename: string, topic: string): seq<ChunkRecord> {
    seq(|pieces|, i requires 0 <= i < |pieces| =>
      ChunkRecord(filename, topic, SectionOf(pieces[i]), i, Strip(pieces[i]), RecordSources, PublishedYear, Region))
  }

  /** Each piece record carries its index, the filename, the topic, and its piece's stripped text and section. */
  lemma PieceRecordsLayout(pieces: seq<string>, filename: string, topic: string)
    ensures var r := PieceRecords(pieces, filename, topic);
      && |r| == |pieces|
      && (forall i :: 0 <= i < |r| ==> r[i].chunkId == i && r[i].filename == filename && r[i].topicTitle == topic)
      && (forall i :: 0 <= i < |r| ==> r[i].text == Strip(pieces[i]) && r[i].section == SectionOf(pieces[i]))
  {
  }

  /** Every piece record is well formed once the topic has no underscore. */
  lemma PieceRecordsWellFormed(pieces: seq<string>, filename: string, topic: string)
    requires '_' !in topic
    ensures forall i :: 0 <= i < |PieceRecords(pieces, filename, topic)| ==> WellFormed(PieceRecords(pieces, filename, topic)[i])
  {
    var r := PieceRecords(pieces, filename, topic);
    forall i | 0 <= i < |r|
      ensures WellFormed(r[i])
    {
      PieceRecordWellFormed(pieces[i], i, filename, topic);
    }
  }

  /** The record of one piece is well formed. */
  lemma PieceRecordWellFormed(piece: string, i: nat, filename: string, topic: string)
    requires '_' !in topic
    ensures WellFormed(ChunkRecord(filename, topic, SectionOf(piece), i, Strip(piece), RecordSources, PublishedYear, Region))
  {
    StripIdempotent(piece);
  }

  /**
   * `chunk_text(text, filename)`: the `i`-th piece of the splitter becomes the record
   * with `chunk_id = i`, its stripped text, its section and the file's topic.
   */
  function ChunkText(text: string, filename: string, split: string -> seq<string>): (r: seq<ChunkRecord>)
    ensures |r| == |split(text)|
    ensures forall i :: 0 <= i < |r| ==> r[i].chunkId == i && r[i].filename == filename && r[i].topicTitle == TopicOf(filename)
    ensures forall i :: 0 <= i < |r| ==> r[i].text == Strip(split(text)[i]) && r[i].section == SectionOf(split(text)[i])
    ensures forall i :: 0 <= i < |r| ==> WellFormed(r[i])
  {
    PieceRecordsLayout(split(text), filename, TopicOf(filename));
    PieceRecordsWellFormed(split(text), filename, TopicOf(filename));
    PieceRecords(split(text), filename, TopicOf(filename))
  }

  /** A document's chunks: none when its text is blank. */
  function DocChunks(d: SourceDoc, split: string -> seq<string>): seq<ChunkRecord> {
    var text := d.text.GetOr("");
    if Strip(text) == "" then [] else ChunkText(text, d.filename.GetOr(DefaultFilename), split)
  }

  /** The loop over the documents: each document's chunks, in document order. */
  function AllChunks(docs: seq<SourceDoc>, split: string -> seq<string>): (r: seq<ChunkRecord>)
    ensures forall i :: 0 <= i < |r| ==> WellFormed(r[i])
    decreases |docs|
  {
    if |docs| == 0 then [] else DocChunks(docs[0], split) + AllChunks(docs[1..], split)
  }

  /**
   * `chunk_documents(input_json, output_json)`: the records written, one per line, or
   * `None` when the input file is missing and nothing is written.
   */
  function ChunkDocuments(input: Option<seq<SourceDoc>>, split: string -> seq<string>): (r: Option<seq<ChunkRecord>>)
    ensures r.None? <==> input.None?
    ensures r.Some? ==> forall i :: 0 <= i < |r.value| ==> WellFormed(r.value[i])
  {
    match input
    case None => None
    case Some(docs) => Some(AllChunks(docs, split))
  }

  /** The output for a concatenation of inputs is the concatenation of their outputs. */
  lemma {:induction false} AllChunksAppend(a: seq<SourceDoc>, b: seq<SourceDoc>, split: string -> seq<string>)
    ensures AllChunks(a + b, split) == AllChunks(a, split) + AllChunks(b, split)
    decreases |a|
  {
    if |a| == 0 {
      assert a + b == b;
    } else {
      var ab := a + b;
      assert ab[0] == a[0] && ab[1..] == a[1..] + b;
      AllChunksAppend(a[1..], b, split);
      ConcatAssoc(DocChunks(a[0], split), AllChunks(a[1..], split), AllChunks(b, split));
    }
  }

  lemma ConcatAssoc<T>(p: seq<T>, q: seq<T>, r: seq<T>)
    ensures p + (q + r) == (p + q) + r
  {
  }

  /** A document with blank or missing text leaves the output exactly as without it. */
  lemma BlankDocSkipped(a: seq<SourceDoc>, d: SourceDoc, b: seq<SourceDoc>, split: string -> seq<string>)
    requires AllSpace(d.text.GetOr(""))
    ensures AllChunks(a + [d] + b, split) == AllChunks(a + b, split)
  {
    assert DocChunks(d, split) == [];
    assert [d][1..] == [];
    var single := AllChunks([d], split);
    assert single == DocChunks([d][0], split) + AllChunks([d][1..], split);
    assert AllChunks([], split) == [];
    assert single == [];
    AllChunksAppend(a, [d], split);
    var left := AllChunks(a + [d], split);
    assert left == AllChunks(a, split);
    AllChunksAppend(a + [d], b, split);
    AllChunksAppend(a, b, split);
  }

  /** A document whose entry has no filename is recorded under `"unknown.pdf"`. */
  lemma MissingFilenameDefaults(text: string, split: string -> seq<string>)
    requires !AllSpace(text)
    ensures forall r :: r in DocChunks(SourceDoc(None, Some(text)), split) ==> r.filename == DefaultFilename
    ensures |DocChunks(SourceDoc(None, Some(text)), split)| == |split(text)|
  {
  }

  /** The per-document chunk lists, in document order. */
  function PerDoc(docs: seq<SourceDoc>, split: string -> seq<string>): (r: seq<seq<ChunkRecord>>)
    ensures |r| == |docs| && forall i :: 0 <= i < |docs| ==> r[i] == DocChunks(docs[i], split)
  {
    seq(|docs|, i requires 0 <= i < |docs| => DocChunks(docs[i], split))
  }

  /** The chunk file is the flattening of the per-document chunk lists. */
  lemma {:induction false} AllChunksFlatten(docs: seq<SourceDoc>, split: string -> seq<string>)
    ensures AllChunks(docs, split) == Flatten(PerDoc(docs, split))
    decreases |docs|
  {
    if |docs| > 0 {
      AllChunksFlatten(docs[1..], split);
      assert PerDoc(docs, split)[1..] == PerDoc(docs[1..], split);
    }
  }
}

=== FILE: embeddings.dfy ===
/**
 * `embed_texts` and `build_faiss_index`: the texts are encoded in fixed-size batches and
 * stacked; the index holds one vector per chunk line, aligned with one metadata record
 * per line. The sentence encoder is a collaborator, `embed`, applied to each text.
 */
module Embeddings {
  import opened Wrappers
  import opened Lists
  import opened Chunking

  const DefaultBatchSize: int := 32

  /** One embedding row. */
  type Vector = seq<real>

  /**
   * Why `embed_texts` raises: `range` refuses a zero step, and `np.vstack` refuses an
   * empty list, which is what a negative step or no texts leaves it.
   */
  datatype EmbedError = ZeroBatchSize | NothingToStack

  /** `texts[i:i + b]` for every `i` in `range(start, len(texts), b)`. */
  function BatchesFrom(texts: seq<string>, b: nat, start: nat): (r: seq<seq<string>>)
    requires b > 0 && start <= |texts|
    ensures forall j :: 0 <= j < |r| ==> 0 < |r[j]| <= b
    ensures forall j :: 0 <= j < |r| - 1 ==> |r[j]| == b
    decreases |texts| - start
  {
    if start == |texts| then []
    else
      var end := Min(start + b, |texts|);
      [texts[start..end]] + BatchesFrom(texts, b, end)
  }

  /** The batches cover the texts exactly: their concatenation is the input. */
  lemma {:induction false} BatchesCover(texts: seq<string>, b: nat, start: nat)
    requires b > 0 && start <= |texts|
    ensures Flatten(BatchesFrom(texts, b, start)) == texts[start..]
    decreases |texts| - start
  {
    if start < |texts| {
      var end := Min(start + b, |texts|);
      var rest := BatchesFrom(texts, b, end);
      BatchesCover(texts, b, end);
      assert ([texts[start..end]] + rest)[1..] == rest;
      assert texts[start..end] + texts[end..] == texts[start..];
    }
  }

  /** One batch through the encoder: a row per text, in order. */
  function EncodeBatch(batch: seq<string>, embed: string -> Vector): (rows: seq<Vector>)
    ensures |rows| == |batch| && forall i :: 0 <= i < |batch| ==> rows[i] == embed(batch[i])
  {
    seq(|batch|, i requires 0 <= i < |batch| => embed(batch[i]))
  }

  /** `np.vstack` of the encoded batches. */
  function StackEncoded(batches: seq<seq<string>>, embed: string -> Vector): seq<Vector>
    decreases |batches|
  {
    if |batches| == 0 then [] else EncodeBatch(batches[0], embed) + StackEncoded(batches[1..], embed)
  }

  /** Stacking the encoded batches is encoding the concatenated batches. */
  lemma {:induction false} StackEncodedFlatten(batches: seq<seq<string>>, embed: string -> Vector)
    ensures StackEncoded(batches, embed) == EncodeBatch(Flatten(batches), embed)
    decreases |batches|
  {
    if |batches| > 0 {
      StackEncodedFlatten(batches[1..], embed);
      var head := EncodeBatch(batches[0], embed);
      var tail := EncodeBatch(Flatten(batches[1..]), embed);
      assert Flatten(batches) == batches[0] + Flatten(batches[1..]);
      assert head + tail == EncodeBatch(Flatten(batches), embed);
    }
  }

  /**
   * `embed_texts(texts, batch_size)`: whatever the batch size, the rows are the texts'
   * embeddings in input order, one per text.
   */
  function EmbedTexts(texts: seq<string>, b: int, embed: string -> Vector): (r: Result<seq<Vector>, EmbedError>)
    ensures r == Failure(ZeroBatchSize) <==> b == 0
    ensures r == Failure(NothingToStack) <==> b < 0 || (b > 0 && |texts| == 0)
    ensures r.Success? ==> |r.value| == |texts| && forall i :: 0 <= i < |texts| ==> r.value[i] == embed(texts[i])
  {
    if b == 0 then Failure(ZeroBatchSize)
    else if b < 0 || |texts| == 0 then Failure(NothingToStack)
    else
      var batches := BatchesFrom(texts, b, 0);
      BatchesCover(texts, b, 0);
      StackEncodedFlatten(batches, embed);
      assert texts[0..] == texts;
      Success(StackEncoded(batches, embed))
  }

  /** One parsed line of the chunk file; a key the line lacks is `None`. */
  datatype ChunkLine = ChunkLine(text: Option<string>, topicTitle: Option<string>, section: Option<string>, filename: Option<string>)

  /** `{"topic": ..., "section": ..., "filename": ...}`, a missing key as `null`. */
  datatype Metadata = Metadata(topic: Option<string>, section: Option<string>, filename: Option<string>)

  /** What the build writes: the index's vectors and the metadata file's records. */
  datatype IndexFiles = IndexFiles(vectors: seq<Vector>, metadata: seq<Metadata>)

  /** `obj["text"]` raising `KeyError` on the line at `line`, or `embed_texts` raising. */
  datatype BuildError = MissingText(line: nat) | EmbedFailed(cause: EmbedError)

  function MetaOf(line: ChunkLine): Metadata {
    Metadata(line.topicTitle, line.section, line.filename)
  }

  /** models/embeddings.py:33-40: the texts and the metadata, one of each per line, or the first line lacking text. */
  function Extract(lines: seq<ChunkLine>): (r: Result<(seq<string>, seq<Metadata>), nat>)
    ensures r.Success? ==>
      && |r.value.0| == |lines| && |r.value.1| == |lines|
      && forall i :: 0 <= i < |lines| ==> lines[i].text == Some(r.value.0[i]) && r.value.1[i] == MetaOf(lines[i])
    ensures r.Failure? ==> r.error < |lines| && lines[r.error].text.None? && forall j :: 0 <= j < r.error ==> lines[j].text.Some?
    ensures r.Success? <==> forall i :: 0 <= i < |lines| ==> lines[i].text.Some?
    decreases |lines|
  {
    if |lines| == 0 then Success(([], []))
    else if lines[0].text.None? then Failure(0)
    else
      match Extract(lines[1..])
      case Failure(k) => Failure(k + 1)
      case Success((texts, metas)) => Success(([lines[0].text.value] + texts, [MetaOf(lines[0])] + metas))
  }

  /**
   * `build_faiss_index(chunks_path, index_path)`: the `i`-th vector embeds the `i`-th
   * line's text and the `i`-th metadata record describes the same line. A line without
   * text stops the build; so does a file without lines.
   */
  function BuildFaissIndex(lines: seq<ChunkLine>, embed: string -> Vector): (r: Result<IndexFiles, BuildError>)
    ensures r.Success? ==>
      && |r.value.vectors| == |lines| && |r.value.metadata| == |lines|
      && forall i :: 0 <= i < |lines| ==>
           lines[i].text.Some? && r.value.vectors[i] == embed(lines[i].text.value) && r.value.metadata[i] == MetaOf(lines[i])
    ensures r.Failure? && r.error.MissingText? ==> r.error.line < |lines| && lines[r.error.line].text.None?
    ensures r.Success? <==> |lines| > 0 && forall i :: 0 <= i < |lines| ==> lines[i].text.Some?
  {
    match Extract(lines)
    case Failure(k) => Failure(MissingText(k))
    case Success((texts, metas)) =>
      match EmbedTexts(texts, DefaultBatchSize, embed)
      case Failure(e) => Failure(EmbedFailed(e))
      case Success(vectors) => Success(IndexFiles(vectors, metas))
  }

  /** How `chunk_documents` writes a record and the build reads it back. */
  function LineOf(rec: ChunkRecord): ChunkLine {
    ChunkLine(Some(rec.text), Some(rec.topicTitle), Some(rec.section), Some(rec.filename))
  }

  /**
   * The records of the chunking stage always build: each chunk gets the embedding of its
   * text, and its metadata carries its topic, section and filename.
   */
  lemma ChunkFileBuilds(records: seq<ChunkRecord>, embed: string -> Vector)
    requires |records| > 0
    ensures var lines := seq(|records|, i requires 0 <= i < |records| => LineOf(records[i]));
      var r := BuildFaissIndex(lines, embed);
      && r.Success?
      && forall i :: 0 <= i < |records| ==>
           && r.value.vectors[i] == embed(records[i].text)
           && r.value.metadata[i] == Metadata(Some(records[i].topicTitle), Some(records[i].section), Some(records[i].filename))
  {
  }
}

=== FILE: lists.dfy ===
/** Python list helpers used across the model: distinct label lists, set-to-list conversion, concatenation. */
module Lists {

  /** No element occurs twice. */
  predicate NoDup(xs: seq<string>) {
    forall i, j :: 0 <= i < j < |xs| ==> xs[i] != xs[j]
  }

  /** `xs` lists the finite set `s`: every member once, nothing else. */
  predicate IsListing(xs: seq<string>, s: set<string>) {
    NoDup(xs) && (forall x :: x in xs ==> x in s) && (forall x :: x in s ==> x in xs)
  }

  /**
   * `list(set(xs))`. Python leaves the order of a set's iteration unspecified; the model
   * fixes first-occurrence order, which is one of the orders CPython may produce.
   */
  function Dedup(xs: seq<string>): (r: seq<string>)
    ensures NoDup(r)
    ensures forall x :: x in r <==> x in xs
    ensures |r| <= |xs|
    decreases |xs|
  {
    if |xs| == 0 then []
    else
      var r := Dedup(xs[..|xs| - 1]);
      assert forall x :: x in xs <==> x in xs[..|xs| - 1] || x == xs[|xs| - 1] by {
        assert xs == xs[..|xs| - 1] + [xs[|xs| - 1]];
      }
      if xs[|xs| - 1] in r then r else r + [xs[|xs| - 1]]
  }

  /** A distinct list has as many elements as the set it lists. */
  lemma {:induction false} ListingCardinality(xs: seq<string>, s: set<string>)
    requires IsListing(xs, s)
    ensures |xs| == |s|
    decreases |xs|
  {
    if |xs| > 0 {
      var last := xs[|xs| - 1];
      var init := xs[..|xs| - 1];
      assert xs == init + [last];
      assert last !in init;
      assert IsListing(init, s - {last});
      ListingCardinality(init, s - {last});
    }
  }

  /** A set listing is empty exactly when its set is. */
  lemma ListingEmptyIff(xs: seq<string>, s: set<string>)
    requires IsListing(xs, s)
    ensures |xs| == 0 <==> s == {}
  {
    if s != {} {
      var x :| x in s;
      assert x in xs;
    }
    if |xs| > 0 {
      assert xs[0] in xs;
    }
  }

  /** A prefix of a set listing is distinct and draws from the set. */
  lemma ListingPrefix(xs: seq<string>, s: set<string>, n: nat)
    requires IsListing(xs, s)
    requires n <= |xs|
    ensures NoDup(xs[..n])
    ensures forall x :: x in xs[..n] ==> x in s
  {
  }

  /** Concatenation of a list of lists (`itertools.chain`, `list.extend` in a loop, `np.vstack`). */
  function Flatten<T>(xss: seq<seq<T>>): seq<T>
    decreases |xss|
  {
    if |xss| == 0 then [] else xss[0] + Flatten(xss[1..])
  }

  /** Python's `xs[:n]` for any integer `n`: a negative bound counts from the end. */
  function SliceTo<T>(xs: seq<T>, n: int): (r: seq<T>)
    ensures n >= 0 ==> |r| == if n <= |xs| then n else |xs|
    ensures n < 0 ==> |r| == if |xs| + n >= 0 then |xs| + n else 0
    ensures r == xs[..|r|]
  {
    if n >= 0 then (if n <= |xs| then xs[..n] else xs)
    else if |xs| + n >= 0 then xs[..|xs| + n]
    else []
  }
}

=== FILE: llm.dfy ===
/**
 * `generate_answer`: builds the request from the context, the question, the response
 * style and the source note, calls the language model, and retries once with web results
 * when the model says it lacks information. The Groq endpoint and the Google endpoint are
 * collaborators; the prompt wording is not modelled, only the fields a request carries.
 */
module Llm {
  import opened Wrappers
  import opened PyStr
  import opened WebSearch

  /** The response-style directive. */
  datatype Style = Concise | Detailed

  /** `response_mode.lower() == "concise"` selects the concise note; every other mode the detailed one. */
  function StyleFor(mode: string): Style {
    if Lower(mode) == "concise" then Concise else Detailed
  }

  /** Stands in for an empty context inside the prompt. */
  const NoContextMarker: string := "No relevant context available."

  const SourcesHeading: string := "\n\nRelevant Sources: "

  /** `f"\n\nRelevant Sources: {', '.join(sources)}" if sources else ""`. */
  function SourceNote(sources: Option<seq<string>>): string {
    if sources.None? || |sources.value| == 0 then "" else SourcesHeading + Join(sources.value, ", ")
  }

  /**
   * The user message of one model call: the context section, the question, the style
   * directive, the source note and, on the retry, the appended web-search section.
   */
  datatype Request = Request(
    context: string,
    question: string,
    style: Style,
    sourceNote: string,
    webResults: Option<string>)

  /**
   * How a model call ends: the reply's `choices[0].message.content`; a `RequestException`
   * (connection failure, timeout, error status, or a body that is not JSON, which
   * `requests` reports as a `RequestException` too); or a JSON body missing those fields
   * (`KeyError`/`IndexError`).
   */
  datatype Reply = Ok(content: string) | NetErr | Malformed

  /** One outgoing call, in the order made. */
  datatype Call = ModelCall(request: Request) | WebCall(query: string)

  /** The returned answer and the calls made to produce it. */
  datatype Generated = Generated(answer: string, calls: seq<Call>)

  /** `ValueError` raised when the API key is empty. */
  datatype GenError = MissingApiKey

  /** The generator's collaborators: the key, the search endpoint and the model endpoint. */
  datatype Services = Services(
    apiKey: string,
    searchApi: string -> SearchResponse,
    model: Request -> Reply)

  /** Lower-cased markers by which the model says it cannot answer. */
  const InsufficientPhrases: seq<string> := [
    "i don’t have enough medical information",
    "i don't have enough medical information",
    "insufficient context",
    "not enough information"
  ]

  const NetworkFailureMessage: string := "⚠️ Network or API request failed while generating the response."
  const InvalidResponseMessage: string := "⚠️ Received an invalid response from the model."
  const WebRetryFailureNote: string := "\n\n⚠️ Web search data could not be processed."

  predicate ReportsInsufficient(answer: string) {
    AnyContained(Lower(answer), InsufficientPhrases)
  }

  /** `google_search(query)` with its default number of results. */
  function WebText(svc: Services, query: string): string {
    GoogleSearch(svc.searchApi(query), DefaultNumResults)
  }

  /** The request of the first model call. */
  function PrimaryRequest(query: string, context: string, mode: string, sources: Option<seq<string>>): (req: Request)
    ensures req.context == if context == "" then NoContextMarker else context
    ensures req.style == Concise <==> Lower(mode) == "concise"
    ensures req.sourceNote == "" <==> sources.None? || |sources.value| == 0
    ensures req.webResults.None?
  {
    Request(if context == "" then NoContextMarker else context, query, StyleFor(mode), SourceNote(sources), None)
  }

  function CountModelCalls(calls: seq<Call>): nat
    decreases |calls|
  {
    if |calls| == 0 then 0 else (if calls[0].ModelCall? then 1 else 0) + CountModelCalls(calls[1..])
  }

  function CountWebCalls(calls: seq<Call>): nat
    decreases |calls|
  {
    if |calls| == 0 then 0 else (if calls[0].WebCall? then 1 else 0) + CountWebCalls(calls[1..])
  }

  /** The first reply arrived and says the model lacks information: the web search is made. */
  predicate AsksForWeb(reply: Reply) {
    reply.Ok? && ReportsInsufficient(Strip(reply.content))
  }

  /**
   * `generate_answer(query, context, response_mode, sources)`. Only a missing key raises;
   * every other path returns a string. The first call always carries the primary request.
   * A web search, with the caller's own query, happens exactly when the first reply says
   * it lacks information; a second model call, carrying the first request plus the web
   * text, exactly when that search also returned non-blank text. A failed first call maps
   * to its fixed message; otherwise the answer is the stripped first reply, replaced by
   * the stripped second reply when the retry succeeds, or marked with the processing note
   * when it fails. The `sources` rebinding after a successful retry is local to the call
   * and never reaches the caller, so the model returns only the answer.
   */
  function GenerateAnswer(svc: Services, query: string, context: string, mode: string, sources: Option<seq<string>>)
    : (r: Result<Generated, GenError>)
    ensures r.Failure? <==> svc.apiKey == ""
    ensures r.Success? ==>
      var req := PrimaryRequest(query, context, mode, sources);
      var first := svc.model(req);
      var web := WebText(svc, query);
      var retry := req.(webResults := Some(web));
      var calls := r.value.calls;
      && 1 <= |calls| <= 3 && calls[0] == ModelCall(req)
      && (|calls| >= 2 <==> AsksForWeb(first)) && (|calls| >= 2 ==> calls[1] == WebCall(query))
      && (|calls| == 3 <==> AsksForWeb(first) && !AllSpace(web)) && (|calls| == 3 ==> calls[2] == ModelCall(retry))
      && (first.NetErr? ==> r.value.answer == NetworkFailureMessage)
      && (first.Malformed? ==> r.value.answer == InvalidResponseMessage)
      && (first.Ok? && !(AsksForWeb(first) && !AllSpace(web)) ==> r.value.answer == Strip(first.content))
      && (AsksForWeb(first) && !AllSpace(web) ==>
            r.value.answer == if svc.model(retry).Ok? then Strip(svc.model(retry).content)
                              else Strip(first.content) + WebRetryFailureNote)
  {
    if svc.apiKey == "" then Failure(MissingApiKey)
    else
      var req := PrimaryRequest(query, context, mode, sources);
      var first := svc.model(req);
      var asks := AsksForWeb(first);
      AfterFirstAnswer(svc, query, req, first, asks);
      Success(AfterFirstReply(svc, query, req, first, asks))
  }

  /**
   * models/llm.py:95-117: the calls that follow the first model call, given its outcome `first`
   * and whether a successful reply says it lacks information (`asks`, the test of
   * models/llm.py:102, decided once by the caller).
   */
  function AfterFirstReply(svc: Services, query: string, req: Request, first: Reply, asks: bool): (g: Generated)
    ensures var web := WebText(svc, query);
      var calls := g.calls;
      && 1 <= |calls| <= 3 && calls[0] == ModelCall(req)
      && (|calls| >= 2 <==> first.Ok? && asks) && (|calls| >= 2 ==> calls[1] == WebCall(query))
      && (|calls| == 3 <==> first.Ok? && asks && !AllSpace(web))
      && (|calls| == 3 ==> calls[2] == ModelCall(req.(webResults := Some(web))))
  {
    match first
    case NetErr => Generated(NetworkFailureMessage, [ModelCall(req)])
    case Malformed => Generated(InvalidResponseMessage, [ModelCall(req)])
    case Ok(content) =>
      if !asks then Generated(Strip(content), [ModelCall(req)])
      else WebRetry(svc, query, req, Strip(content))
  }

  /**
   * models/llm.py:102-123: a failed first call maps to its fixed message; otherwise the answer is
   * the stripped first reply, unless the retry ran: then the stripped second reply, or the
   * first one marked with the processing note when the second call failed.
   */
  lemma AfterFirstAnswer(svc: Services, query: string, req: Request, first: Reply, asks: bool)
    ensures var web := WebText(svc, query);
      var retry := req.(webResults := Some(web));
      var answer := AfterFirstReply(svc, query, req, first, asks).answer;
      && (first.NetErr? ==> answer == NetworkFailureMessage)
      && (first.Malformed? ==> answer == InvalidResponseMessage)
      && (first.Ok? && !(asks && !AllSpace(web)) ==> answer == Strip(first.content))
      && (first.Ok? && asks && !AllSpace(web) ==>
            answer == if svc.model(retry).Ok? then Strip(svc.model(retry).content)
                      else Strip(first.content) + WebRetryFailureNote)
  {
    if first.Ok? && asks {
      var g := WebRetry(svc, query, req, Strip(first.content));
      assert AfterFirstReply(svc, query, req, first, asks) == g;
    }
  }

  /**
   * models/llm.py:103-115: after an insufficient first answer, the search with the caller's
   * query, then a second model call only when the search returned non-blank text. The
   * trace always opens with the first call and the search; a third call differs from the
   * first request only in carrying the web text, and the answer is the stripped reply to
   * it, or the first answer with the note when that call fails. Without a third call the
   * first answer stands.
   */
  function WebRetry(svc: Services, query: string, req: Request, answer: string): (g: Generated)
    ensures |g.calls| == 2 || |g.calls| == 3
    ensures g.calls[0] == ModelCall(req) && g.calls[1] == WebCall(query)
    ensures |g.calls| == 3 <==> !AllSpace(WebText(svc, query))
    ensures |g.calls| == 3 ==> g.calls[2].ModelCall? && g.calls[2].request == req.(webResults := Some(WebText(svc, query)))
    ensures |g.calls| == 2 ==> g.answer == answer
    ensures |g.calls| == 3 ==>
      var second := svc.model(g.calls[2].request);
      g.answer == if second.Ok? then Strip(second.content) else answer + WebRetryFailureNote
  {
    var web := WebText(svc, query);
    if Strip(web) == "" then Generated(answer, [ModelCall(req), WebCall(query)])
    else
      var retry := req.(webResults := Some(web));
      var second := svc.model(retry);
      Generated(if second.Ok? then Strip(second.content) else answer + WebRetryFailureNote,
                [ModelCall(req), WebCall(query), ModelCall(retry)])
  }

  /**
   * The call budget of one answer: at most two model calls and one web search, the
   * first call always to the model, and any search made with the caller's query.
   */
  lemma CallBudget(svc: Services, query: string, context: string, mode: string, sources: Option<seq<string>>)
    requires svc.apiKey != ""
    ensures var calls := GenerateAnswer(svc, query, context, mode, sources).value.calls;
      && calls[0].ModelCall?
      && CountModelCalls(calls) <= 2 && CountWebCalls(calls) <= 1
      && (forall i :: 0 <= i < |calls| && calls[i].WebCall? ==> calls[i].query == query)
  {
    var req := PrimaryRequest(query, context, mode, sources);
    var calls := GenerateAnswer(svc, query, context, mode, sources).value.calls;
    ShapeCounts(calls, req, req.(webResults := Some(WebText(svc, query))), query);
  }

  /**
   * Every model request of one answer carries the caller's question, the style of the
   * caller's mode and the caller's source note; only the retry adds web results.
   */
  lemma RequestsCarryCaller(svc: Services, query: string, context: string, mode: string, sources: Option<seq<string>>)
    requires svc.apiKey != ""
    ensures var calls := GenerateAnswer(svc, query, context, mode, sources).value.calls;
      forall i :: 0 <= i < |calls| && calls[i].ModelCall? ==>
        && calls[i].request.question == query
        && calls[i].request.style == StyleFor(mode)
        && calls[i].request.sourceNote == SourceNote(sources)
  {
    var req := PrimaryRequest(query, context, mode, sources);
    var calls := GenerateAnswer(svc, query, context, mode, sources).value.calls;
    ShapeCounts(calls, req, req.(webResults := Some(WebText(svc, query))), query);
  }

  /** Call counts add up over consecutive stretches of a trace. */
  lemma {:induction false} CountsAppend(a: seq<Call>, b: seq<Call>)
    ensures CountModelCalls(a + b) == CountModelCalls(a) + CountModelCalls(b)
    ensures CountWebCalls(a + b) == CountWebCalls(a) + CountWebCalls(b)
    decreases |a|
  {
    if |a| == 0 {
      assert a + b == b;
    } else {
      assert (a + b)[1..] == a[1..] + b;
      CountsAppend(a[1..], b);
    }
  }

  /**
   * A trace of the shape `generate_answer` produces: its counts, and each of its model
   * calls carries the primary request or the retry, each search the given query.
   */
  lemma ShapeCounts(calls: seq<Call>, req: Request, retry: Request, query: string)
    requires 1 <= |calls| <= 3 && calls[0] == ModelCall(req)
    requires |calls| >= 2 ==> calls[1] == WebCall(query)
    requires |calls| == 3 ==> calls[2] == ModelCall(retry)
    ensures CountModelCalls(calls) == if |calls| == 3 then 2 else 1
    ensures CountWebCalls(calls) == if |calls| >= 2 then 1 else 0
    ensures forall i :: 0 <= i < |calls| && calls[i].ModelCall? ==> calls[i].request in {req, retry}
    ensures forall i :: 0 <= i < |calls| && calls[i].WebCall? ==> calls[i].query == query
  {
    if |calls| == 1 {
      assert calls[1..] == [];
    } else if |calls| == 2 {
      assert calls[1..][1..] == [];
      assert CountWebCalls(calls[1..]) == 1;
      assert CountModelCalls(calls[1..]) == 0;
    } else {
      assert calls[1..][1..][1..] == [];
      assert CountWebCalls(calls[1..][1..]) == 0;
      assert CountModelCalls(calls[1..][1..]) == 1;
      assert CountWebCalls(calls[1..]) == 1;
      assert CountModelCalls(calls[1..]) == 1;
    }
  }

  /** The app's two modes select the two styles; the default `"detailed"` is detailed. */
  lemma AppModes()
    ensures StyleFor("Concise") == Concise
    ensures StyleFor("Detailed") == Detailed
    ensures StyleFor("detailed") == Detailed
  {
    ConciseMode();
    DetailedModes();
  }

  lemma ConciseMode()
    ensures StyleFor("Concise") == Concise
  {
    assert Lower("Concise") == "concise";
  }

  lemma DetailedModes()
    ensures StyleFor("Detailed") == Detailed
    ensures StyleFor("detailed") == Detailed
  {
    assert Lower("Detailed")[0] == 'd';
    assert Lower("detailed")[0] == 'd';
  }
}

=== FILE: pdf_parser.dfy ===
/**
 * `extract_text_from_pdf` and `extract_text_from_pdfs`: the text of a PDF is its pages'
 * texts, each followed by a line break, stripped as a whole; the batch run keeps the
 * `.pdf` entries of a directory listing. The PDF reader is a collaborator whose outcome
 * arrives as a `PdfRead`.
 */
module PdfParser {
  import opened Wrappers
  import opened PyStr

  const PdfSuffix: string := ".pdf"

  /** What opening the file and reading its pages produced; a page without text is `None`. */
  datatype PdfRead = Pages(texts: seq<Option<string>>) | ReadFailed

  /** `FileNotFoundError` before reading, or the `RuntimeError` wrapping a reader failure. */
  datatype PdfError = FileNotFound | ReadError

  /** One entry of `pdf_texts.json`. */
  datatype PdfText = PdfText(filename: string, text: string)

  /** A page that `if page_text:` lets through. */
  predicate HasText(page: Option<string>) {
    page.Some? && page.value != ""
  }

  /** The loop of utils/pdf_parser.py:21-24: `page_text + "\n"` for every page with text, in page order. */
  function JoinPages(pages: seq<Option<string>>): string
    decreases |pages|
  {
    if |pages| == 0 then ""
    else (if HasText(pages[0]) then pages[0].value + "\n" else "") + JoinPages(pages[1..])
  }

  /** Pages read one after another contribute one after another. */
  lemma {:induction false} JoinPagesAppend(a: seq<Option<string>>, b: seq<Option<string>>)
    ensures JoinPages(a + b) == JoinPages(a) + JoinPages(b)
    decreases |a|
  {
    if |a| == 0 {
      assert a + b == b;
    } else {
      assert (a + b)[1..] == a[1..] + b;
      JoinPagesAppend(a[1..], b);
    }
  }

  /** A joined text is blank exactly when every page is missing or blank. */
  lemma {:induction false} JoinPagesBlankIff(pages: seq<Option<string>>)
    ensures AllSpace(JoinPages(pages)) <==> forall i :: 0 <= i < |pages| && pages[i].Some? ==> AllSpace(pages[i].value)
    decreases |pages|
  {
    if |pages| > 0 {
      JoinPagesBlankIff(pages[1..]);
      var head := if HasText(pages[0]) then pages[0].value + "\n" else "";
      AllSpaceAppend(head, JoinPages(pages[1..]));
      if HasText(pages[0]) {
        AllSpaceAppend(pages[0].value, "\n");
      }
      assert forall i :: 1 <= i < |pages| ==> pages[i] == pages[1..][i - 1];
    }
  }

  /**
   * `extract_text_from_pdf(file_path)`: a missing file raises before reading, a reader
   * failure is reported as a read error, and otherwise the stripped join of the pages is
   * returned; it is empty exactly when no page holds anything but whitespace.
   */
  function ExtractTextFromPdf(fileExists: bool, read: PdfRead): (r: Result<string, PdfError>)
    ensures r == Failure(FileNotFound) <==> !fileExists
    ensures r == Failure(ReadError) <==> fileExists && read.ReadFailed?
    ensures r.Failure? ==> r.error == if fileExists then ReadError else FileNotFound
    ensures r.Success? ==> read.Pages? && r.value == Strip(JoinPages(read.texts))
    ensures r.Success? ==>
      (r.value == "" <==> forall i :: 0 <= i < |read.texts| && read.texts[i].Some? ==> AllSpace(read.texts[i].value))
  {
    if !fileExists then Failure(FileNotFound)
    else
      match read
      case ReadFailed => Failure(ReadError)
      case Pages(texts) =>
        JoinPagesBlankIff(texts);
        Success(Strip(JoinPages(texts)))
  }

  /** utils/pdf_parser.py:40-41: the listing's names that end in `.pdf`, case-sensitively, in listing order. */
  function PdfNames(listing: seq<string>): (r: seq<string>)
    ensures forall x :: x in r <==> x in listing && EndsWith(x, PdfSuffix)
    ensures |r| <= |listing|
    decreases |listing|
  {
    if |listing| == 0 then []
    else (if EndsWith(listing[0], PdfSuffix) then [listing[0]] else []) + PdfNames(listing[1..])
  }

  /** Filtering a concatenated listing filters each part. */
  lemma {:induction false} PdfNamesAppend(a: seq<string>, b: seq<string>)
    ensures PdfNames(a + b) == PdfNames(a) + PdfNames(b)
    decreases |a|
  {
    if |a| == 0 {
      assert a + b == b;
    } else {
      assert (a + b)[1..] == a[1..] + b;
      PdfNamesAppend(a[1..], b);
    }
  }

  /** A listed file that still exists when it is opened and that the reader can parse. */
  predicate Readable(file: string, present: string -> bool, read: string -> PdfRead) {
    present(file) && read(file).Pages?
  }

  /** `rec` is the record of `name`: the text `extract_text_from_pdf` returns for it. */
  predicate RecordOf(rec: PdfText, name: string, present: string -> bool, read: string -> PdfRead) {
    rec.filename == name && ExtractTextFromPdf(present(name), read(name)) == Success(rec.text)
  }

  /** `data` holds, in order, the extracted text of each of `names`. */
  predicate RecordsFor(data: seq<PdfText>, names: seq<string>, present: string -> bool, read: string -> PdfRead) {
    |data| == |names| && forall i :: 0 <= i < |data| ==> RecordOf(data[i], names[i], present, read)
  }

  /** Every `.pdf` entry of the listing can be extracted. */
  predicate AllReadable(listing: seq<string>, present: string -> bool, read: string -> PdfRead) {
    forall x :: x in listing && EndsWith(x, PdfSuffix) ==> Readable(x, present, read)
  }

  /** The entry at `i` is the first `.pdf` entry of the listing that cannot be extracted. */
  predicate FirstUnreadable(listing: seq<string>, i: int, present: string -> bool, read: string -> PdfRead) {
    && 0 <= i < |listing|
    && EndsWith(listing[i], PdfSuffix)
    && !Readable(listing[i], present, read)
    && forall j :: 0 <= j < i && EndsWith(listing[j], PdfSuffix) ==> Readable(listing[j], present, read)
  }

  /**
   * The run stops with `err`: some entry is the first unreadable `.pdf` entry, and `err` is
   * `FileNotFoundError` when it is missing and the wrapped read error otherwise.
   */
  predicate StopsWith(listing: seq<string>, present: string -> bool, read: string -> PdfRead, err: PdfError) {
    exists i :: 0 <= i < |listing| && FirstUnreadable(listing, i, present, read) && err == (if present(listing[i]) then ReadError else FileNotFound)
  }

  /**
   * `extract_text_from_pdfs(pdf_dir, output_path)`: one record per `.pdf` entry of the
   * listing, in listing order, holding that file's extracted text; or the error that stops
   * the run before anything is written. `present` tells whether a listed name still exists
   * when it is opened (a dangling link or a file removed after the listing does not). The
   * run stops at the first `.pdf` entry that is missing or unreadable, with that entry's error.
   */
  function ExtractTextFromPdfs(listing: seq<string>, present: string -> bool, read: string -> PdfRead): (r: Result<seq<PdfText>, PdfError>)
    ensures r.Success? ==> RecordsFor(r.value, PdfNames(listing), present, read)
    ensures r.Success? <==> AllReadable(listing, present, read)
    ensures r.Failure? ==> StopsWith(listing, present, read, r.error)
    decreases |listing|
  {
    if |listing| == 0 then Success([])
    else
      var file := listing[0];
      var rest := ExtractTextFromPdfs(listing[1..], present, read);
      ReadableCons(listing, present, read);
      if !EndsWith(file, PdfSuffix) then
        StopsLater(listing, present, read, rest);
        rest
      else
        var text := ExtractTextFromPdf(present(file), read(file));
        if text.Failure? then
          StopsHere(listing, present, read, text.error);
          Failure(text.error)
        else if rest.Failure? then
          StopsLater(listing, present, read, rest);
          rest
        else
          RecordsCons(PdfText(file, text.value), rest.value, listing[1..], present, read);
          Success([PdfText(file, text.value)] + rest.value)
  }

  /** Readability of a listing is readability of its head and of its tail. */
  lemma ReadableCons(listing: seq<string>, present: string -> bool, read: string -> PdfRead)
    requires |listing| > 0
    ensures AllReadable(listing, present, read) <==>
      (EndsWith(listing[0], PdfSuffix) ==> Readable(listing[0], present, read)) && AllReadable(listing[1..], present, read)
  {
    assert listing == [listing[0]] + listing[1..];
    assert forall x :: x in listing <==> x == listing[0] || x in listing[1..];
  }

  /** An unreadable `.pdf` head stops the run at once, with its own error. */
  lemma StopsHere(listing: seq<string>, present: string -> bool, read: string -> PdfRead, err: PdfError)
    requires |listing| > 0 && EndsWith(listing[0], PdfSuffix) && !Readable(listing[0], present, read)
    requires err == if present(listing[0]) then ReadError else FileNotFound
    ensures StopsWith(listing, present, read, err)
  {
    assert FirstUnreadable(listing, 0, present, read);
  }

  /** A stop in the tail is a stop of the whole listing once the head is passed. */
  lemma StopsLater(listing: seq<string>, present: string -> bool, read: string -> PdfRead, rest: Result<seq<PdfText>, PdfError>)
    requires |listing| > 0 && (EndsWith(listing[0], PdfSuffix) ==> Readable(listing[0], present, read))
    requires rest.Failure? ==> StopsWith(listing[1..], present, read, rest.error)
    ensures rest.Failure? ==> StopsWith(listing, present, read, rest.error)
  {
    if rest.Failure? {
      var t := listing[1..];
      var i :| 0 <= i < |t| && FirstUnreadable(t, i, present, read) && rest.error == (if present(t[i]) then ReadError else FileNotFound);
      assert t[i] == listing[i + 1];
      forall j | 0 <= j < i + 1 && EndsWith(listing[j], PdfSuffix)
        ensures Readable(listing[j], present, read)
      {
        if j > 0 {
          assert listing[j] == t[j - 1];
        }
      }
      assert FirstUnreadable(listing, i + 1, present, read);
    }
  }

  /** A record put in front of the records of the tail's names gives the records of all names. */
  lemma RecordsCons(rec: PdfText, data: seq<PdfText>, tail: seq<string>, present: string -> bool, read: string -> PdfRead)
    requires RecordOf(rec, rec.filename, present, read)
    requires RecordsFor(data, PdfNames(tail), present, read)
    requires EndsWith(rec.filename, PdfSuffix)
    ensures RecordsFor([rec] + data, PdfNames([rec.filename] + tail), present, read)
  {
    assert ([rec.filename] + tail)[1..] == tail;
    ConsPointwise(data, PdfNames(tail), rec, rec.filename, (rec, name) => RecordOf(rec, name, present, read));
  }

  /** A relation that holds pointwise between two lists still holds after prefixing a related pair. */
  lemma ConsPointwise<A, B>(xs: seq<A>, ys: seq<B>, x: A, y: B, rel: (A, B) -> bool)
    requires |xs| == |ys| && forall i :: 0 <= i < |xs| ==> rel(xs[i], ys[i])
    requires rel(x, y)
    ensures forall i :: 0 <= i < |xs| + 1 ==> rel(([x] + xs)[i], ([y] + ys)[i])
  {
  }
}

=== FILE: pystr.dfy ===
/**
 * The Python `str` operations the pipeline relies on, with Python's semantics:
 * `strip`, `split` (word count), `lower`, `title`, `replace`, `join`, `in`, `endswith`.
 * Case mapping is modelled on ASCII letters; whitespace is the full `str.isspace` set.
 */
module PyStr {
  import opened Wrappers

  /** Characters for which Python's `str.isspace()` holds; also the class `\s` of `re`. */
  predicate IsSpace(c: char) {
    || c == ' ' || c == '\t' || c == '\n' || c == '\r' || c == '\U{0B}' || c == '\U{0C}'
    || ('\U{1C}' <= c <= '\U{1F}') || c == '\U{85}' || c == '\U{A0}' || c == '\U{1680}'
    || ('\U{2000}' <= c <= '\U{200A}') || c == '\U{2028}' || c == '\U{2029}'
    || c == '\U{202F}' || c == '\U{205F}' || c == '\U{3000}'
  }

  predicate IsUpper(c: char) { 'A' <= c <= 'Z' }

  predicate IsLower(c: char) { 'a' <= c <= 'z' }

  predicate IsLetter(c: char) { IsUpper(c) || IsLower(c) }

  /** True of a string that `s.strip()` empties: Python's "blank". */
  predicate AllSpace(s: string) {
    forall i :: 0 <= i < |s| ==> IsSpace(s[i])
  }

  /** Concatenation is blank exactly when both parts are. */
  lemma AllSpaceAppend(a: string, b: string)
    ensures AllSpace(a + b) <==> AllSpace(a) && AllSpace(b)
  {
    if AllSpace(a + b) {
      assert forall i :: 0 <= i < |a| ==> a[i] == (a + b)[i];
      assert forall i :: 0 <= i < |b| ==> b[i] == (a + b)[|a| + i];
    }
  }

  /** `s.lstrip()`: the suffix left after dropping leading whitespace. */
  function LStrip(s: string): (r: string)
    ensures |r| <= |s| && r == s[|s| - |r|..]
    ensures AllSpace(s[..|s| - |r|])
    ensures r == [] || !IsSpace(r[0])
    decreases |s|
  {
    if |s| > 0 && IsSpace(s[0]) then
      var r := LStrip(s[1..]);
      assert s[..|s| - |r|] == [s[0]] + s[1..][..|s| - 1 - |r|];
      r
    else s
  }

  /** `s.rstrip()`: the prefix left after dropping trailing whitespace. */
  function RStrip(s: string): (r: string)
    ensures |r| <= |s| && r == s[..|r|]
    ensures AllSpace(s[|r|..])
    ensures r == [] || !IsSpace(r[|r| - 1])
    decreases |s|
  {
    if |s| > 0 && IsSpace(s[|s| - 1]) then
      var r := RStrip(s[..|s| - 1]);
      assert s[|r|..] == s[..|s| - 1][|r|..] + [s[|s| - 1]];
      r
    else s
  }

  /**
   * `s.strip()`. The result is a slice of `s` with no whitespace at either end, and it is
   * empty exactly when `s` is blank.
   */
  function Strip(s: string): (r: string)
    ensures |r| <= |s|
    ensures r == [] <==> AllSpace(s)
    ensures r != [] ==> !IsSpace(r[0]) && !IsSpace(r[|r| - 1])
  {
    StripBlank(s);
    RStrip(LStrip(s))
  }

  /** `s.strip()` is the slice of `s` left between its leading and its trailing whitespace. */
  lemma StripIsSlice(s: string)
    ensures exists i, j :: 0 <= i <= j <= |s| && Strip(s) == s[i..j] && AllSpace(s[..i]) && AllSpace(s[j..])
  {
    var l := LStrip(s);
    var r := RStrip(l);
    var i := |s| - |l|;
    assert r == s[i..i + |r|] && s[i + |r|..] == l[|r|..];
    assert Strip(s) == s[i..i + |r|] && AllSpace(s[..i]) && AllSpace(s[i + |r|..]);
  }

  lemma StripBlank(s: string)
    ensures RStrip(LStrip(s)) == [] <==> AllSpace(s)
  {
    var l := LStrip(s);
    var k := |s| - |l|;
    if RStrip(l) == [] {
      assert AllSpace(l[0..]);
      assert l == [];
      assert s[..k] == s;
    }
  }

  /** A character absent from a string is absent from its `strip()`. */
  lemma StripKeepsOut(s: string, c: char)
    requires c !in s
    ensures c !in Strip(s)
  {
    var l := LStrip(s);
    assert Strip(s) == RStrip(l) == l[..|RStrip(l)|];
  }

  /** A string already free of surrounding whitespace is its own `strip()`. */
  lemma StripTrimmed(s: string)
    requires s == [] || (!IsSpace(s[0]) && !IsSpace(s[|s| - 1]))
    ensures Strip(s) == s
  {
    assert LStrip(s) == s;
    assert RStrip(s) == s;
  }

  /** `strip()` is idempotent. */
  lemma StripIdempotent(s: string)
    ensures Strip(Strip(s)) == Strip(s)
  {
    var t := Strip(s);
    StripTrimmed(t);
  }

  /** Python's `len(s.split())`: the number of maximal runs of non-whitespace characters. */
  function WordCount(s: string): nat
    decreases |s|
  {
    if |s| == 0 then 0
    else
      var starts := !IsSpace(s[|s| - 1]) && (|s| == 1 || IsSpace(s[|s| - 2]));
      WordCount(s[..|s| - 1]) + if starts then 1 else 0
  }

  /** A string has no words exactly when it is blank. */
  lemma {:induction false} WordCountZeroIffBlank(s: string)
    ensures WordCount(s) == 0 <==> AllSpace(s)
    decreases |s|
  {
    if |s| > 0 {
      var init := s[..|s| - 1];
      WordCountZeroIffBlank(init);
      assert s == init + [s[|s| - 1]];
      AllSpaceAppend(init, [s[|s| - 1]]);
      if |s| > 1 {
        assert s[|s| - 2] == init[|init| - 1];
      }
    }
  }

  function LowerChar(c: char): char {
    if IsUpper(c) then (c as int + 32) as char else c
  }

  function UpperChar(c: char): char {
    if IsLower(c) then (c as int - 32) as char else c
  }

  /** `s.lower()` on ASCII letters. */
  function Lower(s: string): (r: string)
    ensures |r| == |s|
    ensures forall i :: 0 <= i < |s| ==> r[i] == LowerChar(s[i])
    decreases |s|
  {
    if |s| == 0 then "" else [LowerChar(s[0])] + Lower(s[1..])
  }

  /**
   * `s.title()` on ASCII letters, continuing after a character whose cased-ness is
   * `prevCased`: a letter after a letter is lowered, any other letter is raised.
   */
  function TitleFrom(s: string, prevCased: bool): (r: string)
    ensures |r| == |s|
    decreases |s|
  {
    if |s| == 0 then ""
    else
      var c := s[0];
      var t := if !IsLetter(c) then c else if prevCased then LowerChar(c) else UpperChar(c);
      [t] + TitleFrom(s[1..], IsLetter(c))
  }

  function Title(s: string): string {
    TitleFrom(s, false)
  }

  /** `title()` is idempotent: re-titling a titled string changes nothing. */
  lemma {:induction false} TitleFromIdempotent(s: string, prevCased: bool)
    ensures TitleFrom(TitleFrom(s, prevCased), prevCased) == TitleFrom(s, prevCased)
    decreases |s|
  {
    if |s| > 0 {
      var t := TitleFrom(s, prevCased);
      assert t[1..] == TitleFrom(s[1..], IsLetter(s[0]));
      assert IsLetter(t[0]) == IsLetter(s[0]);
      TitleFromIdempotent(s[1..], IsLetter(s[0]));
    }
  }

  /** `title()` changes only the case of letters: every other character is kept in place. */
  lemma {:induction false} TitleFromKeepsNonLetters(s: string, prevCased: bool, i: nat)
    requires i < |s| && !IsLetter(s[i])
    ensures TitleFrom(s, prevCased)[i] == s[i]
    decreases |s|
  {
    if i > 0 {
      TitleFromKeepsNonLetters(s[1..], IsLetter(s[0]), i - 1);
    }
  }

  /** A character keeps its letter-ness under `title()`. */
  lemma {:induction false} TitleFromLetters(s: string, prevCased: bool, i: nat)
    requires i < |s|
    ensures IsLetter(TitleFrom(s, prevCased)[i]) <==> IsLetter(s[i])
    decreases |s|
  {
    if i > 0 {
      TitleFromLetters(s[1..], IsLetter(s[0]), i - 1);
    }
  }

  /** `title()` changes only the case of letters: lower-casing undoes it. */
  lemma {:induction false} TitleFromLower(s: string, prevCased: bool)
    ensures Lower(TitleFrom(s, prevCased)) == Lower(s)
    decreases |s|
  {
    if |s| > 0 {
      TitleFromLower(s[1..], IsLetter(s[0]));
      var t := TitleFrom(s, prevCased);
      assert t[1..] == TitleFrom(s[1..], IsLetter(s[0]));
      assert LowerChar(t[0]) == LowerChar(s[0]);
      assert Lower(t) == [LowerChar(t[0])] + Lower(t[1..]);
      assert Lower(s) == [LowerChar(s[0])] + Lower(s[1..]);
    }
  }

  /**
   * Appending the pattern to a string in which it does not begin before the appended copy
   * replaces exactly that copy at the end.
   */
  lemma {:induction false} ReplaceAppendedPattern(s: string, pat: string, rep: string)
    requires |pat| > 0
    requires forall j :: 0 <= j < |s| ==> !OccursAt(s + pat, pat, j)
    ensures Replace(s + pat, pat, rep) == Replace(s, pat, rep) + rep
    decreases |s|
  {
    var t := s + pat;
    if |s| == 0 {
      assert t == pat;
      assert t[|pat|..] == [];
    } else {
      assert t[..|pat|] != pat by {
        assert !OccursAt(t, pat, 0);
      }
      assert t[1..] == s[1..] + pat;
      forall j | 0 <= j < |s| - 1
        ensures !OccursAt(s[1..] + pat, pat, j)
      {
        assert !OccursAt(t, pat, j + 1);
        assert (s[1..] + pat)[j..j + |pat|] == t[j + 1..j + 1 + |pat|];
      }
      ReplaceAppendedPattern(s[1..], pat, rep);
      assert Replace(t, pat, rep) == [s[0]] + Replace(s[1..] + pat, pat, rep);
      if |s| >= |pat| {
        assert s[..|pat|] != pat by {
          assert s[..|pat|] == t[..|pat|];
        }
        assert Replace(s, pat, rep) == [s[0]] + Replace(s[1..], pat, rep);
      } else {
        assert Replace(s[1..], pat, rep) == s[1..];
        assert Replace(s, pat, rep) == [s[0]] + s[1..];
      }
    }
  }

  /** `s.startswith(p)`. */
  predicate IsPrefix(p: string, s: string) {
    |p| <= |s| && s[..|p|] == p
  }

  /** `s.endswith(suffix)`. */
  predicate EndsWith(s: string, suffix: string) {
    |suffix| <= |s| && s[|s| - |suffix|..] == suffix
  }

  /** Python's `sub in s`. */
  predicate Contains(s: string, sub: string)
    decreases |s|
  {
    IsPrefix(sub, s) || (|s| > 0 && Contains(s[1..], sub))
  }

  /** `any(word in text for word in words)`. */
  predicate AnyContained(text: string, words: seq<string>)
    decreases |words|
  {
    |words| > 0 && (Contains(text, words[0]) || AnyContained(text, words[1..]))
  }

  /** `pat` occurs in `s` starting at index `j`. */
  predicate OccursAt(s: string, pat: string, j: int) {
    0 <= j && j + |pat| <= |s| && s[j..j + |pat|] == pat
  }

  /** `s.find(pat, i)`: the first occurrence at or after `i`, `None` for Python's `-1`. */
  function FindFrom(s: string, pat: string, i: nat): (r: Option<nat>)
    requires i <= |s|
    ensures r.Some? ==> i <= r.value && OccursAt(s, pat, r.value)
    ensures forall j :: i <= j && (r.None? || j < r.value) ==> !OccursAt(s, pat, j)
    decreases |s| - i
  {
    if OccursAt(s, pat, i) then Some(i)
    else if i == |s| then None
    else FindFrom(s, pat, i + 1)
  }

  /** `sep.join(parts)`. */
  function Join(parts: seq<string>, sep: string): string
    decreases |parts|
  {
    if |parts| == 0 then ""
    else if |parts| == 1 then parts[0]
    else parts[0] + sep + Join(parts[1..], sep)
  }

  /** `s.replace(pat, rep)` for a non-empty `pat`: non-overlapping occurrences, left to right. */
  function Replace(s: string, pat: string, rep: string): string
    requires |pat| > 0
    decreases |s|
  {
    if |s| < |pat| then s
    else if s[..|pat|] == pat then rep + Replace(s[|pat|..], pat, rep)
    else [s[0]] + Replace(s[1..], pat, rep)
  }

  /** Replacing one character by another maps each position independently and keeps the length. */
  lemma {:induction false} ReplaceCharPointwise(s: string, a: char, b: char)
    ensures |Replace(s, [a], [b])| == |s|
    ensures forall i :: 0 <= i < |s| ==> Replace(s, [a], [b])[i] == if s[i] == a then b else s[i]
    decreases |s|
  {
    if |s| > 0 {
      ReplaceCharPointwise(s[1..], a, b);
      if s[..1] == [a] {
        assert s[0] == a;
      } else {
        assert s[0] != a;
      }
    }
  }

  /** After replacing `a` by a different character no `a` is left. */
  lemma ReplaceCharRemoves(s: string, a: char, b: char)
    requires a != b
    ensures a !in Replace(s, [a], [b])
  {
    ReplaceCharPointwise(s, a, b);
  }
}

=== FILE: rag_search.dfy ===
/**
 * `get_relevant_context`: query enrichment from an uploaded report, the pass over the
 * nearest-neighbour hits, the average-distance relevance gate and the formatting of the
 * accepted chunks. Embedding plus FAISS search is one collaborator, `Store.search`.
 */
module RagSearch {
  import opened Wrappers
  import opened PyStr
  import opened Lists
  import opened TitlePhrases
  /** Above this average distance the retrieval is weak and rejected. */
  const WeakDistance: real := 0.5
  /** The distance bound of the second, domain-keyword stage. */
  const OffTopicDistance: real := 0.55
  /** At most this many report phrases form the enriched query. */
  const MaxKeywords: nat := 30
  /** Phrases must be longer than this to enrich the query. */
  const MinKeywordLength: nat := 3
  /** The preview of the second stage looks at this many leading blocks. */
  const PreviewBlocks: nat := 3

  const MedicalKeywords: seq<string> :=
    ["health", "disease", "treatment", "symptom", "diagnosis", "medical", "nutrition", "blood", "doctor"]

  /** One `(distance, index)` pair of the search; index `-1` means "no neighbour". */
  datatype Hit = Hit(distance: real, index: int)

  /** One line of `processed_chunks.jsonl`; a key the line lacks is `None`. */
  datatype StoredChunk = StoredChunk(
    topicTitle: Option<string>,
    section: Option<string>,
    text: Option<string>,
    sources: Option<seq<string>>)

  /**
   * The state loaded at import time: whether the FAISS index file existed, the chunk
   * file's records (`None` when the file is missing), and the embed-then-search call.
   */
  datatype Store = Store(
    indexLoaded: bool,
    chunkFile: Option<seq<StoredChunk>>,
    search: (string, int) -> seq<Hit>)

  /** The exceptions `get_relevant_context` lets escape. */
  datatype RetrievalError =
    | ChunksFileMissing      // `open(CHUNKS_PATH)` raises FileNotFoundError
    | ChunkIndexOutOfRange   // `chunks[idx]` raises IndexError

  /** The `(context, sources)` pair returned to the caller. */
  datatype Retrieved = Retrieved(context: string, sources: seq<string>)

  // ----- Query enrichment -----

  /** The distinct report phrases long enough to enrich the query. */
  function KeywordSet(report: string): set<string> {
    set w | w in FindPhrases(report) && |w| > MinKeywordLength
  }

  /**
   * `order` is the iteration order CPython happens to give `set(keywords)`; the source
   * leaves it unspecified, so the model takes it as an input.
   */
  predicate ValidOrder(report: Option<string>, order: seq<string>) {
    report.Some? ==> IsListing(order, KeywordSet(report.value))
  }

  /** `keywords[:30]`. */
  function Picked(order: seq<string>): seq<string> {
    order[..Min(MaxKeywords, |order|)]
  }

  /** Enrichment happens for a truthy report with at least one surviving phrase. */
  predicate Enriches(report: Option<string>) {
    report.Some? && report.value != "" && KeywordSet(report.value) != {}
  }

  lemma OrderEmptyIff(report: Option<string>, order: seq<string>)
    requires ValidOrder(report, order)
    ensures report.Some? ==> (|order| == 0 <==> KeywordSet(report.value) == {})
  {
    if report.Some? {
      ListingEmptyIff(order, KeywordSet(report.value));
    }
  }

  /** The query that is embedded: the caller's, or the report's picked phrases. */
  function EnrichQuery(query: string, report: Option<string>, order: seq<string>): (q: string)
    requires ValidOrder(report, order)
    ensures !Enriches(report) ==> q == query
    ensures Enriches(report) ==> q == Join(Picked(order), " ")
  {
    OrderEmptyIff(report, order);
    if report.Some? && report.value != "" && |order| > 0 then Join(Picked(order), " ") else query
  }

  /**
   * The picked phrases are distinct Title-Case phrases of the report, each longer than
   * three characters, and there are as many as the report offers up to thirty.
   */
  lemma PickedKeywords(report: string, order: seq<string>)
    requires IsListing(order, KeywordSet(report))
    ensures |Picked(order)| == Min(MaxKeywords, |KeywordSet(report)|)
    ensures NoDup(Picked(order))
    ensures forall w :: w in Picked(order) ==>
      w in FindPhrases(report) && IsTitlePhrase(w) && |w| > MinKeywordLength
  {
    ListingCardinality(order, KeywordSet(report));
    ListingPrefix(order, KeywordSet(report), Min(MaxKeywords, |order|));
  }

  // ----- The pass over the hits -----

  /** Python's `chunks[idx]`: a negative index counts from the end. */
  function Resolve(n: nat, idx: int): (r: Option<nat>)
    ensures r.Some? ==> r.value < n
    ensures 0 <= idx < n ==> r == Some(idx)
    ensures -(n as int) <= idx < 0 ==> r.Some? && r.value as int == n as int + idx
    ensures r.None? <==> idx < -(n as int) || n <= idx
  {
    if 0 <= idx < n then Some(idx)
    else if -(n as int) <= idx < 0 then Some(n + idx)
    else None
  }

  /** The chunk's source labels, `["Unknown"]` when the record has none. */
  function Labels(c: StoredChunk): seq<string> {
    c.sources.GetOr(["Unknown"])
  }

  /** The chunk text as displayed: stripped, with line breaks turned into spaces. */
  function FlatText(c: StoredChunk): (t: string)
    ensures '\n' !in t
  {
    ReplaceCharRemoves(Strip(c.text.GetOr("")), '\n', ' ');
    Replace(Strip(c.text.GetOr("")), "\n", " ")
  }

  /**
   * The displayed text is the stripped chunk text character for character, except that
   * every line break has become a space.
   */
  lemma FlatTextReplacesBreaks(c: StoredChunk)
    ensures var stripped := Strip(c.text.GetOr(""));
      && |FlatText(c)| == |stripped|
      && forall i :: 0 <= i < |stripped| ==> FlatText(c)[i] == if stripped[i] == '\n' then ' ' else stripped[i]
  {
    ReplaceCharPointwise(Strip(c.text.GetOr("")), '\n', ' ');
  }

  /** `f"[{topic} - {section}]\n{text}\n"`. */
  function Block(c: StoredChunk): string {
    "[" + c.topicTitle.GetOr("General") + " - " + c.section.GetOr("Unknown Section") + "]\n" + FlatText(c) + "\n"
  }

  /** What the loop accumulates: display blocks in rank order, source labels, distance sum. */
  datatype Selection = Selection(blocks: seq<string>, labels: seq<string>, total: real)

  /** Number of real (non-sentinel) hits. */
  function CountKept(hits: seq<Hit>): nat
    decreases |hits|
  {
    if |hits| == 0 then 0 else (if hits[0].index == -1 then 0 else 1) + CountKept(hits[1..])
  }

  /** Sum of the distances of the real hits. */
  function SumKept(hits: seq<Hit>): real
    decreases |hits|
  {
    if |hits| == 0 then 0.0 else (if hits[0].index == -1 then 0.0 else hits[0].distance) + SumKept(hits[1..])
  }

  /** Every real hit names a chunk Python can index. */
  predicate AllResolve(hits: seq<Hit>, n: nat) {
    forall i :: 0 <= i < |hits| && hits[i].index != -1 ==> Resolve(n, hits[i].index).Some?
  }

  /**
   * The `for i, idx in enumerate(indices[0])` loop: sentinel hits are skipped, every
   * other hit adds its distance, its chunk's labels and its display block.
   */
  function Scan(hits: seq<Hit>, chunks: seq<StoredChunk>): (r: Result<Selection, RetrievalError>)
    ensures r.Failure? ==> r.error == ChunkIndexOutOfRange
    ensures r.Success? ==> |r.value.blocks| == CountKept(hits) && r.value.total == SumKept(hits)
    decreases |hits|
  {
    if |hits| == 0 then Success(Selection([], [], 0.0))
    else
      var rest := Scan(hits[1..], chunks);
      if hits[0].index == -1 then rest
      else
        match Resolve(|chunks|, hits[0].index)
        case None => Failure(ChunkIndexOutOfRange)
        case Some(j) =>
          if rest.Failure? then rest
          else
            var c := chunks[j];
            Success(Selection([Block(c)] + rest.value.blocks, Labels(c) + rest.value.labels,
                              hits[0].distance + rest.value.total))
  }

  /** The pass fails exactly when some real hit names no chunk. */
  lemma {:induction false} ScanSucceedsIff(hits: seq<Hit>, chunks: seq<StoredChunk>)
    ensures Scan(hits, chunks).Success? <==> AllResolve(hits, |chunks|)
    decreases |hits|
  {
    if |hits| > 0 {
      ScanSucceedsIff(hits[1..], chunks);
      assert forall i :: 1 <= i < |hits| ==> hits[i] == hits[1..][i - 1];
      if AllResolve(hits[1..], |chunks|) && (hits[0].index != -1 ==> Resolve(|chunks|, hits[0].index).Some?) {
        forall i | 0 <= i < |hits| && hits[i].index != -1
          ensures Resolve(|chunks|, hits[i].index).Some?
        {
          if i > 0 {
            assert hits[i] == hits[1..][i - 1];
          }
        }
      }
    }
  }

  /** Two selections one after the other. */
  function Concat(a: Selection, b: Selection): Selection {
    Selection(a.blocks + b.blocks, a.labels + b.labels, a.total + b.total)
  }

  /** The outcome of two passes one after the other: the first failure, or the concatenation. */
  function Then(r1: Result<Selection, RetrievalError>, r2: Result<Selection, RetrievalError>)
    : Result<Selection, RetrievalError>
  {
    if r1.Failure? || r2.Failure? then Failure(ChunkIndexOutOfRange)
    else Success(Concat(r1.value, r2.value))
  }

  const Empty: Selection := Selection([], [], 0.0)

  /** What one hit contributes on its own. */
  function Head(h: Hit, chunks: seq<StoredChunk>): Result<Selection, RetrievalError> {
    if h.index == -1 then Success(Empty)
    else
      match Resolve(|chunks|, h.index)
      case None => Failure(ChunkIndexOutOfRange)
      case Some(j) => Success(Selection([Block(chunks[j])], Labels(chunks[j]), h.distance))
  }

  lemma ScanStep(hits: seq<Hit>, chunks: seq<StoredChunk>)
    requires |hits| > 0
    ensures Scan(hits, chunks) == Then(Head(hits[0], chunks), Scan(hits[1..], chunks))
  {
    var rest := Scan(hits[1..], chunks);
    var h := hits[0];
    if h.index == -1 {
      if rest.Success? {
        assert [] + rest.value.blocks == rest.value.blocks;
        assert [] + rest.value.labels == rest.value.labels;
      }
    } else if Resolve(|chunks|, h.index).Some? {
      var c := chunks[Resolve(|chunks|, h.index).value];
      assert Head(h, chunks) == Success(Selection([Block(c)], Labels(c), h.distance));
    }
  }

  lemma ThenAssoc(x: Result<Selection, RetrievalError>, y: Result<Selection, RetrievalError>, z: Result<Selection, RetrievalError>)
    ensures Then(Then(x, y), z) == Then(x, Then(y, z))
  {
    if x.Success? && y.Success? && z.Success? {
      assert (x.value.blocks + y.value.blocks) + z.value.blocks == x.value.blocks + (y.value.blocks + z.value.blocks);
      assert (x.value.labels + y.value.labels) + z.value.labels == x.value.labels + (y.value.labels + z.value.labels);
    }
  }

  /** The pass over concatenated hit lists is the concatenation of the passes: rank order is kept. */
  lemma {:induction false} ScanAppend(h1: seq<Hit>, h2: seq<Hit>, chunks: seq<StoredChunk>)
    ensures Scan(h1 + h2, chunks) == Then(Scan(h1, chunks), Scan(h2, chunks))
    decreases |h1|
  {
    var r2 := Scan(h2, chunks);
    if |h1| == 0 {
      assert h1 + h2 == h2;
      if r2.Success? {
        assert [] + r2.value.blocks == r2.value.blocks;
        assert [] + r2.value.labels == r2.value.labels;
      }
    } else {
      var s := h1 + h2;
      assert s[0] == h1[0];
      assert s[1..] == h1[1..] + h2;
      ScanAppend(h1[1..], h2, chunks);
      ScanStep(s, chunks);
      ScanStep(h1, chunks);
      ThenAssoc(Head(h1[0], chunks), Scan(h1[1..], chunks), r2);
    }
  }

  /** A single real hit contributes its chunk's block, labels and distance. */
  lemma ScanSingle(h: Hit, chunks: seq<StoredChunk>)
    requires h.index != -1 && Resolve(|chunks|, h.index).Some?
    ensures var c := chunks[Resolve(|chunks|, h.index).value];
      Scan([h], chunks) == Success(Selection([Block(c)], Labels(c), h.distance))
  {
    assert [h][1..] == [];
    assert Scan([h][1..], chunks) == Success(Selection([], [], 0.0));
    var c := chunks[Resolve(|chunks|, h.index).value];
    assert Scan([h], chunks) == Success(Selection([Block(c)] + [], Labels(c) + [], h.distance + 0.0));
    assert [Block(c)] + [] == [Block(c)];
    assert Labels(c) + [] == Labels(c);
  }

  /** A sentinel hit anywhere in the list changes nothing. */
  lemma SentinelIgnored(h1: seq<Hit>, d: real, h2: seq<Hit>, chunks: seq<StoredChunk>)
    ensures Scan(h1 + [Hit(d, -1)] + h2, chunks) == Scan(h1 + h2, chunks)
  {
    var s := [Hit(d, -1)];
    assert Scan(s, chunks) == Success(Empty) by {
      assert s[1..] == [];
    }
    ScanAppend(h1, s, chunks);
    ThenEmpty(Scan(h1, chunks));
    ScanAppend(h1 + s, h2, chunks);
    ScanAppend(h1, h2, chunks);
  }

  /** Following a pass by an empty one changes nothing. */
  lemma ThenEmpty(x: Result<Selection, RetrievalError>)
    requires x.Failure? ==> x.error == ChunkIndexOutOfRange
    ensures Then(x, Success(Empty)) == x
  {
    if x.Success? {
      assert x.value.blocks + [] == x.value.blocks;
      assert x.value.labels + [] == x.value.labels;
    }
  }

  // ----- The relevance gate -----

  /** `total_distance / max(len(selected_chunks), 1)`. */
  function Average(total: real, count: nat): real {
    total / (Max(count, 1) as real)
  }

  /**
   * A hit list that selects nothing, sentinels only or no hits at all, sums to zero and
   * averages to zero: the `max(..., 1)` divisor keeps the division defined.
   */
  lemma {:induction false} AverageOfNothing(hits: seq<Hit>)
    ensures CountKept(hits) == 0 ==> SumKept(hits) == 0.0
    ensures CountKept(hits) == 0 ==> Average(SumKept(hits), CountKept(hits)) == 0.0
    decreases |hits|
  {
    if |hits| > 0 {
      AverageOfNothing(hits[1..]);
    }
  }

  /** The lower-cased space-join of the first three blocks. */
  function Preview(blocks: seq<string>): string {
    Lower(Join(blocks[..Min(PreviewBlocks, |blocks|)], " "))
  }

  /** The second stage as written: no medical keyword in the preview and a far average. */
  predicate DomainReject(blocks: seq<string>, avg: real) {
    !AnyContained(Preview(blocks), MedicalKeywords) && avg > OffTopicDistance
  }

  /** The first stage: a far average or nothing selected. */
  predicate WeakMatch(sel: Selection) {
    Average(sel.total, |sel.blocks|) > WeakDistance || |sel.blocks| == 0
  }

  /** Both stages of the gate, then the `"\n\n"`-join of the blocks. */
  function Gate(sel: Selection): Retrieved {
    var avg := Average(sel.total, |sel.blocks|);
    var sources := Dedup(sel.labels);
    if avg > WeakDistance || |sel.blocks| == 0 then Retrieved("", sources)
    else if DomainReject(sel.blocks, avg) then Retrieved("", sources)
    else Retrieved(Join(sel.blocks, "\n\n"), sources)
  }

  /** The domain-keyword stage never fires: reaching it needs an average of at most 0.5. */
  lemma DomainStageUnreachable(sel: Selection)
    requires !WeakMatch(sel)
    ensures !DomainReject(sel.blocks, Average(sel.total, |sel.blocks|))
  {
  }

  /** Every block produced by the pass begins with `[`. */
  lemma {:induction false} ScanBlocksBracketed(hits: seq<Hit>, chunks: seq<StoredChunk>)
    requires Scan(hits, chunks).Success?
    ensures forall i :: 0 <= i < |Scan(hits, chunks).value.blocks| ==> Bracketed(Scan(hits, chunks).value.blocks[i])
    decreases |hits|
  {
    if |hits| > 0 {
      ScanBlocksBracketed(hits[1..], chunks);
    }
  }

  /** A display block, or a join of them: non-empty and opening with `[`. */
  predicate Bracketed(s: string) {
    |s| > 0 && s[0] == '['
  }

  /** A joined context opens like its first block, so it is never blank. */
  lemma JoinBracketed(parts: seq<string>, sep: string)
    requires |parts| > 0 && Bracketed(parts[0])
    ensures Bracketed(Join(parts, sep))
    ensures !AllSpace(Join(parts, sep))
  {
    var j := Join(parts, sep);
    if |parts| > 1 {
      assert j == parts[0] + (sep + Join(parts[1..], sep));
    }
    assert j[0] == '[';
    assert !IsSpace(j[0]);
  }

  /**
   * The gate accepts exactly the selections that are non-empty and close on average;
   * accepted or not, the sources are the distinct labels of every selected chunk.
   */
  lemma GateDecision(sel: Selection)
    requires forall i :: 0 <= i < |sel.blocks| ==> Bracketed(sel.blocks[i])
    ensures Gate(sel).context != "" <==> !WeakMatch(sel)
    ensures Gate(sel).context != "" ==> Bracketed(Gate(sel).context) && !AllSpace(Gate(sel).context)
    ensures !WeakMatch(sel) ==> Gate(sel).context == Join(sel.blocks, "\n\n")
    ensures NoDup(Gate(sel).sources)
    ensures forall x :: x in Gate(sel).sources <==> x in sel.labels
  {
    if !WeakMatch(sel) {
      DomainStageUnreachable(sel);
      JoinBracketed(sel.blocks, "\n\n");
    }
  }

  // ----- The whole retrieval -----

  /**
   * `get_relevant_context(query, k, report_text)`. Without an index the answer is empty
   * whatever the query; otherwise the chunks are loaded, the query possibly enriched,
   * the hits scanned and the gate applied.
   */
  function GetRelevantContext(store: Store, query: string, k: int, report: Option<string>, order: seq<string>)
    : (r: Result<Retrieved, RetrievalError>)
    requires ValidOrder(report, order)
    ensures !store.indexLoaded ==> r == Success(Retrieved("", []))
    ensures store.indexLoaded && store.chunkFile.None? ==> r == Failure(ChunksFileMissing)
    ensures r.Success? ==> NoDup(r.value.sources)
  {
    if !store.indexLoaded then Success(Retrieved("", []))
    else
      match store.chunkFile
      case None => Failure(ChunksFileMissing)
      case Some(chunks) =>
        var hits := store.search(EnrichQuery(query, report, order), k);
        match Scan(hits, chunks)
        case Failure(e) => Failure(e)
        case Success(sel) => Success(Gate(sel))
  }

  /**
   * With the index and chunks in place, a retrieval succeeds exactly when every real hit
   * indexes a chunk; its context is empty exactly when the hits were weak and otherwise the
   * blank-line join of the selected blocks in rank order, and its sources
   * are the distinct labels of the selected chunks either way.
   */
  lemma RetrievalOutcome(store: Store, query: string, k: int, report: Option<string>, order: seq<string>)
    requires ValidOrder(report, order)
    requires store.indexLoaded && store.chunkFile.Some?
    ensures var hits := store.search(EnrichQuery(query, report, order), k);
      var r := GetRelevantContext(store, query, k, report, order);
      && (r.Success? <==> AllResolve(hits, |store.chunkFile.value|))
      && (r.Success? ==>
            var sel := Scan(hits, store.chunkFile.value).value;
            && (r.value.context == "" <==> WeakMatch(sel))
            && (!WeakMatch(sel) ==> r.value.context == Join(sel.blocks, "\n\n"))
            && (r.value.context != "" ==> !AllSpace(r.value.context))
            && (forall x :: x in r.value.sources <==> x in sel.labels))
  {
    var hits := store.search(EnrichQuery(query, report, order), k);
    var chunks := store.chunkFile.value;
    ScanSucceedsIff(hits, chunks);
    if Scan(hits, chunks).Success? {
      ScanBlocksBracketed(hits, chunks);
      GateDecision(Scan(hits, chunks).value);
    }
  }
}

=== FILE: title_phrases.dfy ===
/**
 * `re.findall(r"\b[A-Z][a-z]+(?:\s[A-Z][a-z]+)*\b", report)`: the Title-Case phrases of a
 * report, found left to right without overlap, with the regular-expression engine's
 * backtracking written out. Word characters (`\w`) are taken on ASCII.
 */
module TitlePhrases {
  import opened Wrappers
  import opened PyStr

  /** `\w` on ASCII: letters, digits and underscore. */
  predicate IsWordChar(c: char) {
    IsLetter(c) || ('0' <= c <= '9') || c == '_'
  }

  /** End of the greedy run `[a-z]*` that starts at `i`. */
  function LowerRunEnd(s: string, i: nat): (e: nat)
    requires i <= |s|
    ensures i <= e <= |s|
    ensures forall j :: i <= j < e ==> IsLower(s[j])
    ensures e == |s| || !IsLower(s[e])
    decreases |s| - i
  {
    if i < |s| && IsLower(s[i]) then LowerRunEnd(s, i + 1) else i
  }

  /** `[A-Z][a-z]+` can begin at `i`. */
  predicate WordStarts(s: string, i: nat) {
    i + 1 < |s| && IsUpper(s[i]) && IsLower(s[i + 1])
  }

  /** `\b` before position `p`, where `s[p]` is a word character. */
  predicate StartBoundary(s: string, p: nat)
    requires p < |s|
  {
    p == 0 || !IsWordChar(s[p - 1])
  }

  /** `\b` at position `e`, where `s[e - 1]` is a word character. */
  predicate EndBoundary(s: string, e: nat)
    requires e <= |s|
  {
    e == |s| || !IsWordChar(s[e])
  }

  /**
   * Two neighbouring characters inside a phrase: a capital follows whitespace,
   * whitespace follows a small letter, and whitespace is followed by a capital.
   */
  predicate Link(a: char, b: char) {
    && (IsUpper(b) ==> IsSpace(a))
    && (IsSpace(b) ==> IsLower(a))
    && (IsSpace(a) ==> IsUpper(b))
  }

  predicate LinkAt(s: string, j: nat)
    requires 0 < j < |s|
  {
    Link(s[j - 1], s[j])
  }

  /**
   * `s[p..e]` spells a phrase the pattern accepts: Title-Case words of ASCII letters,
   * each pair separated by exactly one whitespace character.
   */
  predicate PhraseSpan(s: string, p: nat, e: nat)
    requires p <= e <= |s|
  {
    && e - p >= 2 && IsUpper(s[p]) && IsLower(s[e - 1])
    && (forall j :: p <= j < e ==> IsLetter(s[j]) || IsSpace(s[j]))
    && (forall j :: p < j < e ==> LinkAt(s, j))
  }

  /** The same shape, stated of a phrase on its own. */
  predicate IsTitlePhrase(w: string) {
    PhraseSpan(w, 0, |w|)
  }

  lemma SpanIsPhrase(s: string, p: nat, e: nat)
    requires p <= e <= |s| && PhraseSpan(s, p, e)
    ensures IsTitlePhrase(s[p..e])
  {
    var w := s[p..e];
    assert forall j :: 0 <= j < |w| ==> w[j] == s[p + j];
    forall j | 0 < j < |w|
      ensures LinkAt(w, j)
    {
      assert LinkAt(s, p + j);
    }
  }

  lemma SpaceIsNotLetter(c: char)
    ensures IsSpace(c) ==> !IsLetter(c)
  {
  }

  /** One more `\s[A-Z][a-z]+` group keeps a span a phrase. */
  lemma ExtendSpan(s: string, p: nat, e: nat)
    requires p < e && e + 2 < |s| && PhraseSpan(s, p, e)
    requires IsSpace(s[e]) && WordStarts(s, e + 1)
    ensures PhraseSpan(s, p, LowerRunEnd(s, e + 2))
  {
    var e' := LowerRunEnd(s, e + 2);
    SpaceIsNotLetter(s[e]);
    forall j | p < j < e'
      ensures LinkAt(s, j)
    {
      if j > e + 1 {
        SpaceIsNotLetter(s[j]);
        SpaceIsNotLetter(s[j - 1]);
      }
    }
  }

  /**
   * The tail `(?:\s[A-Z][a-z]+)*\b` matched after a word ending at `e`: the greedy loop
   * takes another group when it can and gives it back when `\b` then fails. Shortening
   * a `[a-z]+` run never helps, since a letter would then follow and `\b` fail.
   */
  function TailEnd(s: string, p: nat, e: nat): (r: Option<nat>)
    requires p < e <= |s| && PhraseSpan(s, p, e)
    ensures r.Some? ==> e <= r.value <= |s| && PhraseSpan(s, p, r.value) && EndBoundary(s, r.value)
    decreases |s| - e
  {
    if e + 2 < |s| && IsSpace(s[e]) && WordStarts(s, e + 1) then
      ExtendSpan(s, p, e);
      var more := TailEnd(s, p, LowerRunEnd(s, e + 2));
      if more.Some? then more
      else if EndBoundary(s, e) then Some(e) else None
    else if EndBoundary(s, e) then Some(e) else None
  }

  /**
   * Whenever a phrase with a word boundary at both ends runs from `p` to `e`, the tail
   * matcher started at any word end `m` inside it matches, and no shorter than `e`.
   */
  lemma {:induction false} TailComplete(s: string, p: nat, m: nat, e: nat)
    requires p < m <= e <= |s| && PhraseSpan(s, p, m) && PhraseSpan(s, p, e) && EndBoundary(s, e)
    requires m == |s| || !IsLower(s[m])
    ensures TailEnd(s, p, m).Some? && TailEnd(s, p, m).value >= e
    decreases |s| - m
  {
    if m < e {
      SpaceIsNotLetter(s[m - 1]);
      assert LinkAt(s, m);
      assert IsSpace(s[m]);
      SpaceIsNotLetter(s[m]);
      assert LinkAt(s, m + 1);
      assert IsUpper(s[m + 1]);
      assert LinkAt(s, m + 2);
      SpaceIsNotLetter(s[m + 2]);
      assert WordStarts(s, m + 1);
      ExtendSpan(s, p, m);
      var m' := LowerRunEnd(s, m + 2);
      TailComplete(s, p, m', e);
    }
  }

  /**
   * The match that begins at `p`: a phrase with a word boundary at both ends, and at
   * least as long as any such phrase beginning at `p`, so none is missed.
   */
  function MatchAt(s: string, p: nat): (r: Option<nat>)
    requires p < |s|
    ensures r.Some? ==> p < r.value <= |s| && PhraseSpan(s, p, r.value)
    ensures r.Some? ==> StartBoundary(s, p) && EndBoundary(s, r.value)
    ensures forall e :: p < e <= |s| && StartBoundary(s, p) && PhraseSpan(s, p, e) && EndBoundary(s, e) ==>
      r.Some? && r.value >= e
  {
    MatchComplete(s, p);
    if StartBoundary(s, p) && WordStarts(s, p) then
      TailEnd(s, p, LowerRunEnd(s, p + 1))
    else None
  }

  lemma MatchComplete(s: string, p: nat)
    requires p < |s|
    ensures forall e :: p < e <= |s| && StartBoundary(s, p) && PhraseSpan(s, p, e) && EndBoundary(s, e) ==>
      WordStarts(s, p) && TailEnd(s, p, LowerRunEnd(s, p + 1)).Some? && TailEnd(s, p, LowerRunEnd(s, p + 1)).value >= e
  {
    forall e | p < e <= |s| && StartBoundary(s, p) && PhraseSpan(s, p, e) && EndBoundary(s, e)
      ensures WordStarts(s, p) && TailEnd(s, p, LowerRunEnd(s, p + 1)).Some? && TailEnd(s, p, LowerRunEnd(s, p + 1)).value >= e
    {
      SpaceIsNotLetter(s[p]);
      assert LinkAt(s, p + 1);
      SpaceIsNotLetter(s[p + 1]);
      assert WordStarts(s, p);
      var m := LowerRunEnd(s, p + 1);
      assert forall j :: p < j < m ==> LinkAt(s, j);
      assert PhraseSpan(s, p, m);
      TailComplete(s, p, m, e);
    }
  }

  /** `re.findall` from position `p`: after a match the scan resumes where it ended. */
  function FindAllFrom(s: string, p: nat): (r: seq<string>)
    requires p <= |s|
    ensures forall w :: w in r ==> IsTitlePhrase(w)
    decreases |s| - p
  {
    if p == |s| then []
    else
      match MatchAt(s, p)
      case Some(e) =>
        SpanIsPhrase(s, p, e);
        [s[p..e]] + FindAllFrom(s, e)
      case None => FindAllFrom(s, p + 1)
  }

  /** Every Title-Case phrase of `report`, in order of appearance. */
  function FindPhrases(report: string): (r: seq<string>)
    ensures forall w :: w in r ==> IsTitlePhrase(w)
  {
    FindAllFrom(report, 0)
  }

  /** A bounded phrase runs from `p` to `e`. */
  predicate Bounded(s: string, p: nat, e: nat) {
    p < e <= |s| && StartBoundary(s, p) && PhraseSpan(s, p, e) && EndBoundary(s, e)
  }

  /** Scanning from `q` passes over every position where no match begins. */
  lemma {:induction false} SkipToMatch(s: string, q: nat, p: nat)
    requires q <= p <= |s|
    requires forall j :: q <= j < p ==> MatchAt(s, j).None?
    ensures FindAllFrom(s, q) == FindAllFrom(s, p)
    decreases p - q
  {
    if q < p {
      SkipToMatch(s, q + 1, p);
    }
  }

  /**
   * `findall` after position `q` (the start, or the end of the previous match): the first
   * bounded phrase that begins at or after `q` is the next result, taken whole, and the
   * scan resumes where it ends.
   */
  lemma NextPhrase(s: string, q: nat, p: nat, e: nat)
    requires q <= p && Bounded(s, p, e)
    requires forall j, k :: q <= j < p && Bounded(s, j, k) ==> false
    ensures MatchAt(s, p).Some? && MatchAt(s, p).value >= e
    ensures FindAllFrom(s, q) == [s[p..MatchAt(s, p).value]] + FindAllFrom(s, MatchAt(s, p).value)
  {
    forall j | q <= j < p
      ensures MatchAt(s, j).None?
    {
      if MatchAt(s, j).Some? {
        assert Bounded(s, j, MatchAt(s, j).value);
      }
    }
    SkipToMatch(s, q, p);
  }

  /** The first bounded phrase of a report is its first phrase, found whole. */
  lemma FirstPhrase(s: string, p: nat, e: nat)
    requires Bounded(s, p, e)
    requires forall j: nat, k: nat :: j < p && Bounded(s, j, k) ==> false
    ensures |FindPhrases(s)| > 0 && FindPhrases(s)[0] == s[p..MatchAt(s, p).value]
    ensures e <= MatchAt(s, p).value
  {
    NextPhrase(s, 0, p, e);
  }

  /** A report without an upper-case ASCII letter yields no phrase. */
  lemma {:induction false} NoCapitalNoPhrase(s: string, p: nat)
    requires p <= |s|
    requires forall j :: p <= j < |s| ==> !IsUpper(s[j])
    ensures FindAllFrom(s, p) == []
    decreases |s| - p
  {
    if p < |s| {
      NoCapitalNoPhrase(s, p + 1);
    }
  }

  /** Inside a whole-string phrase, the tail matcher started at any word end runs to the end. */
  lemma {:induction false} TailRunsToEnd(s: string, e: nat)
    requires IsTitlePhrase(s)
    requires 0 < e <= |s| && IsLower(s[e - 1]) && (e == |s| || IsSpace(s[e]))
    ensures PhraseSpan(s, 0, e)
    ensures TailEnd(s, 0, e) == Some(|s|)
    decreases |s| - e
  {
    if e < |s| {
      SpaceIsNotLetter(s[e]);
      assert LinkAt(s, e + 1);
      SpaceIsNotLetter(s[e + 1]);
      assert LinkAt(s, e + 2);
      var e' := LowerRunEnd(s, e + 2);
      if e' < |s| {
        assert LinkAt(s, e');
      }
      TailRunsToEnd(s, e');
    }
  }

  /** A report that is one phrase and nothing else is found as exactly that phrase. */
  lemma WholeReportPhrase(s: string)
    requires IsTitlePhrase(s)
    ensures FindPhrases(s) == [s]
  {
    SpaceIsNotLetter(s[0]);
    assert LinkAt(s, 1);
    var e := LowerRunEnd(s, 1);
    if e < |s| {
      assert LinkAt(s, e);
    }
    TailRunsToEnd(s, e);
    assert MatchAt(s, 0) == Some(|s|);
    assert FindAllFrom(s, |s|) == [];
    assert FindAllFrom(s, 0) == [s[0..|s|]] + FindAllFrom(s, |s|);
    assert s[0..|s|] == s;
  }
}

=== FILE: web_search.dfy ===
/**
 * `google_search`: formats the Custom Search response into title/snippet/link blocks.
 * The HTTP request is a collaborator; its outcome arrives as a `SearchResponse`.
 */
module WebSearch {
  import opened Wrappers
  import opened PyStr
  import opened Lists

  /** One entry of the response's `items` list; a missing field is `None`. */
  datatype SearchItem = SearchItem(title: Option<string>, snippet: Option<string>, link: Option<string>)

  /**
   * What the HTTP round trip produced: any exception on the way (timeout, HTTP error
   * status, undecodable body) is `RequestFailed`; otherwise the decoded body, whose
   * `items` key may be absent.
   */
  datatype SearchResponse = RequestFailed | Body(items: Option<seq<SearchItem>>)

  /** The `num_results` every caller uses. */
  const DefaultNumResults: int := 3

  /** `f"{title}\n{snippet}\n{link}"`, missing fields as empty strings. */
  function ItemBlock(item: SearchItem): string {
    item.title.GetOr("") + "\n" + item.snippet.GetOr("") + "\n" + item.link.GetOr("")
  }

  function ItemBlocks(items: seq<SearchItem>): (r: seq<string>)
    ensures |r| == |items|
    ensures forall i :: 0 <= i < |items| ==> r[i] == ItemBlock(items[i])
    decreases |items|
  {
    if |items| == 0 then [] else [ItemBlock(items[0])] + ItemBlocks(items[1..])
  }

  /** Python's `results[:num_results]` keeps this many blocks. */
  function KeptCount(available: nat, num: int): nat {
    if num >= 0 then Min(num, available) else Max(available + num, 0)
  }

  /**
   * `google_search(query, num)` given the response to its request. The blocks kept are
   * the first ones in response order; any failure collapses to the empty-string sentinel.
   */
  function GoogleSearch(response: SearchResponse, num: int): (r: string)
    ensures response.RequestFailed? ==> r == ""
    ensures response.Body? ==>
      var blocks := ItemBlocks(response.items.GetOr([]));
      r == Join(blocks[..KeptCount(|blocks|, num)], "\n\n")
  {
    match response
    case RequestFailed => ""
    case Body(items) => Join(SliceTo(ItemBlocks(items.GetOr([])), num), "\n\n")
  }

  /** Joining non-empty parts gives an empty string only when there are no parts. */
  lemma {:induction false} JoinEmptyIff(parts: seq<string>, sep: string)
    requires forall i :: 0 <= i < |parts| ==> parts[i] != ""
    ensures Join(parts, sep) == "" <==> |parts| == 0
    decreases |parts|
  {
    if |parts| > 1 {
      JoinEmptyIff(parts[1..], sep);
    }
  }

  /**
   * The search yields the empty sentinel exactly when the request failed or no item is
   * kept: every kept block holds two newlines, so it is never empty.
   */
  lemma EmptyResultIff(response: SearchResponse, num: int)
    ensures GoogleSearch(response, num) == "" <==>
      response.RequestFailed? || KeptCount(|response.items.GetOr([])|, num) == 0
  {
    if response.Body? {
      var blocks := ItemBlocks(response.items.GetOr([]));
      var kept := blocks[..KeptCount(|blocks|, num)];
      assert forall i :: 0 <= i < |kept| ==> |kept[i]| >= 2;
      JoinEmptyIff(kept, "\n\n");
    }
  }

  /** With the default `num_results`, a response with items always produces text. */
  lemma DefaultSearchNonEmpty(items: seq<SearchItem>)
    requires |items| > 0
    ensures GoogleSearch(Body(Some(items)), DefaultNumResults) != ""
  {
    EmptyResultIff(Body(Some(items)), DefaultNumResults);
  }
}

=== FILE: wrappers.dfy ===
/** Option and Result: the model's stand-ins for Python's None and for raised exceptions. */
module Wrappers {

  /** A value that may be absent, as a dictionary key that may be missing or a parameter that may be None. */
  datatype Option<+T> = None | Some(value: T) {

    /** The value, or `default` when absent (Python's `dict.get(key, default)`). */
    function GetOr(default: T): T {
      match this
      case Some(v) => v
      case None => default
    }
  }

  /** Either a value or the exception the source would raise instead. */
  datatype Result<+R, +E> = Success(value: R) | Failure(error: E)

  function Min(a: int, b: int): int {
    if a <= b then a else b
  }

  function Max(a: int, b: int): int {
    if a >= b then a else b
  }
}
